=== FILE: README.md ===
# SmartNotes core, modelled in Dafny

SmartNotes is a command-line note keeper. Its `SmartNotes` class
(`smartnotes.py`) holds an ordered list of notes in memory. Each note has an
id, a content string, a list of tags, and ISO-8601 `created` and `modified`
timestamps. The class adds, edits, deletes and tags notes, tagging them
automatically from their text (hashtags plus up to three keywords). It
writes the whole list back to a JSON file after every change. It also lists
notes with filters and a limit, counts tags, summarises the store and
exports it as text, Markdown or JSON.

This project models that logic as pure functions over immutable data:

- `options.dfy`: `Option`.
- `seqs.dfy`: duplicate-free sequences, `list(set(...))` as first-occurrence
  deduplication, and list comprehension filters.
- `text.dfy`: the Python string operations the class uses. These are
  `str.lower()`, `str.strip()`, `in` on strings, the `\w` class and the
  `\b…\b` word runs of the regular expressions, and string ordering.
- `sorting.dfy`: `sorted(..., key=..., reverse=...)` as a stable insertion
  sort.
- `tagging.dfy`: `extract_tags` and `extract_keywords`.
- `store.dfy`: the store's data model and `add_note`, `get_note_by_id`,
  `edit_note`, `delete_note` and `tag_note`.
- `query.dfy`: `list_notes`, `list_tags`, `get_stats` and `export_notes`.

Each mutating operation returns a `Step`: the list held in memory afterwards,
plus how the call ended. `Ok` is the case where the program returns `True`.
The clock readings and the outcome of the file write are arguments.
Python's set iteration order is an argument too: `extract_keywords` returns
`list(set(keywords))[:3]`, so which three keywords come out depends on that
order. `order` is any duplicate-free listing of the keyword set.
`FirstOccurrenceOrder` shows that such a listing always exists.

The model follows the code, including where the tests or the apparent
intent say otherwise:

- A new note gets id `len(notes) + 1`, so after a deletion two notes can
  share an id (`Store.DeleteThenAddReusesId`).
- `edit_note` accepts blank content.
- `tag_note` strips `#` but not whitespace, so `"  URGENT  "` becomes
  `"  urgent  "`. The test at `test_smartnotes.py:328-333` expects
  `"urgent"` (`Store.NormalizeKeepsPadding`).
- JSON export keeps store order. Only the text and Markdown writers sort
  by creation time.
- The most recent note is the first maximal one, as `max` returns it.
- The tag filter of `list_notes` lowers only the filter, while explicit
  tags given to `add_note` are stored as given. A note tagged `Work` is
  therefore listed by no tag filter at all, although `list_notes` lowers
  the filter (`Query.CapitalTagNeverMatched`).

## Model

| member | source | states |
|---|---|---|
| Tagging.Hashtags | smartnotes.py:77 | What `re.findall(r'#(\w+)', text)` returns: one nonempty run of word characters per `#` directly followed by one, with case kept. Text without `#` has none. |
| Tagging.ExtractTags | smartnotes.py:75-78 | One tag per `#word` occurrence, in order: the word lowercased. Every tag is a nonempty run of word characters, lowercase, without `#`. Text without `#` has no tags. |
| Tagging.ExtractTagsConcat | smartnotes.py:77 | A character that is neither a word character nor `#` splits the text: the tags of the whole are the tags of the left part followed by those of the right part. |
| Tagging.ExtractTagsSpaced | test_smartnotes.py:442-445 | `#x #y #z` yields exactly `[lower x, lower y, lower z]`, in that order. |
| Tagging.ExtractTagsAfterPlainText | test_smartnotes.py:437-440 | A `#word` after text containing no `#` is the only tag, lowercased. |
| Tagging.KeywordCandidates | smartnotes.py:83-88 | Every candidate is at least four ASCII letters, lowercase, and not a stop word. |
| Tagging.KeywordCandidatesExact | smartnotes.py:83-88 | A word is a candidate exactly when it is a word of the lowered text, at least four ASCII letters long, and not a stop word. |
| Tagging.CandidatesIgnoreCase | smartnotes.py:83 | The text is lowered before matching, so lowering it beforehand gives the same candidates. |
| Tagging.ExtractKeywords | smartnotes.py:80-90 | At most three keywords, distinct, all drawn from the candidates. Exactly `min(3, number of distinct candidates)` come out, whatever the set order. |
| Tagging.FirstOccurrenceOrder | smartnotes.py:90 | A valid iteration order of the keyword set always exists. |
| Tagging.KeywordsAllWhenFew | smartnotes.py:90 | With at most three distinct candidates, every candidate is returned, in any set order. |
| Tagging.KeywordsOfThreeWords | test_smartnotes.py:452-455 | Three space-separated words in any case, each a keyword once lowered, as in `Python programming tutorial`: all three come out lowered, in any set order. |
| Store.SaveStatus | smartnotes.py:122-127 | The operation reports success exactly when the write succeeded. |
| Store.FindFirst | smartnotes.py:193-196 | None exactly when no note has the id; otherwise the position of the first note with it. |
| Store.GetNoteById | smartnotes.py:191-196 | None exactly when no note has the id; otherwise the note at the first position carrying it. |
| Store.TagUnion | smartnotes.py:110 | Duplicate-free, and holds a tag exactly when one of the two lists does. |
| Store.AddNote | smartnotes.py:92-127 | Blank content leaves the list alone and fails. Otherwise exactly one note is appended and the old notes are unchanged. The new note gets id count+1, the content and both timestamps, and the union of hashtags, keywords and explicit tags. The append stays even when the write fails. |
| Store.AddKeepsDenseIds | smartnotes.py:113 | A store built only by adding keeps ids 1..n, so its ids are distinct. The new note is what a lookup of its id returns. |
| Store.AddCanDuplicateId | smartnotes.py:113 | When id count+1 is already taken, adding a note leaves two notes with the same id. |
| Store.DeleteThenAddReusesId | smartnotes.py:225 | Deleting note 2 of notes 1..3, then adding, gives the new note id 3 next to the old note 3. Looking up id 3 then finds the old note. |
| Store.EditNote | smartnotes.py:198-216 | An unknown id fails and changes nothing. Otherwise only the first note with the id changes: new content and modification time, and tags recomputed from the new content alone. Its id and creation time are kept. |
| Store.WithoutId | smartnotes.py:225 | Keeps exactly the notes whose id differs. The id is then absent, and the list shrinks exactly when the id was present. |
| Store.WithoutIdConcat | smartnotes.py:225 | Removal commutes with concatenation, so the remaining notes keep their relative order. |
| Store.DeleteNote | smartnotes.py:218-230 | An unknown id fails and changes nothing. Otherwise every note with the id is removed and the list gets shorter. |
| Store.DeleteMiddleOfThree | smartnotes.py:225 | Deleting id 2 from notes 1..3 leaves notes 1 and 3, in order. |
| Store.DeleteKeepsUniqueIds | smartnotes.py:218-230 | Deletion keeps ids distinct, and afterwards a lookup of the deleted id finds nothing. |
| Store.WithoutIdKeepsUnique | smartnotes.py:225 | Removing notes from a list with distinct ids keeps them distinct. |
| Store.NormalizeTag | smartnotes.py:240 | The result is lowercase, neither starts nor ends with `#`, and is the lowercased tag with only `#` characters cut from both ends. |
| Store.NormalizeTags | smartnotes.py:240 | Each given tag is normalized in place; the count is kept. |
| Store.TagNote | smartnotes.py:232-247 | An unknown id fails and changes nothing. Otherwise only the first note with the id changes: its tags become the union of its old tags and the normalized new ones, with the new modification time. Content, id and creation time are kept. |
| Store.EditAndTagKeepIds | smartnotes.py:198-247 | Editing and tagging never change the list's length or any note's id. |
| Store.NormalizeDropsHash | test_smartnotes.py:328-333 | `#Important` normalizes to `important`. |
| Store.NormalizeKeepsPadding | smartnotes.py:240 | `"  URGENT  "` normalizes to `"  urgent  "`, which differs from `"urgent"`. |
| Text.Lower | smartnotes.py:78 | Keeps the length and maps each character on its own: an ASCII capital to the small letter 32 code points above, every other character unchanged. |
| Text.IsInfix | smartnotes.py:140 | Python's `in` on strings: true exactly when the first string occurs at some position of the second. |
| Text.LowerInfix | smartnotes.py:139-140 | An occurrence still occurs once both strings are lowered. |
| Text.Words | smartnotes.py:83 | The `\b…\b` runs: every element is a nonempty run of word characters. |
| Text.WordsConcat | smartnotes.py:83 | A non-word character splits the text: the words of the whole are the words of each side, in order. |
| Text.Strip | smartnotes.py:94 | The result starts and ends with no stripped character. It is a slice of the input with only stripped characters cut away on each side. |
| Text.StripEmptyIff | smartnotes.py:94 | Stripping yields `""` exactly when every character is stripped. A string whose ends are not stripped is left unchanged. |
| Text.BlankIffAllWhitespace | smartnotes.py:94 | `not content.strip()` holds exactly when every character is whitespace. |
| Text.LexLessFirstDiff | smartnotes.py:143 | Python's `<` on strings (`Text.LexLess`): decided at the first differing code point; a proper prefix is smaller. |
| Text.LexLessTotal | smartnotes.py:143 | String order is total: of two different strings, one is smaller. |
| Text.LexLessTransitive | smartnotes.py:143 | String order is transitive. |
| Sorting.SortBy | smartnotes.py:143 | The result is sorted by key in the requested direction and is a permutation of the input. |
| Sorting.SortStable | smartnotes.py:143 | The elements sharing any one key come out in the order they went in. |
| Query.MatchesIgnoresCase | smartnotes.py:134-140 | Lowering the filter arguments changes nothing: a note passes the filters exactly when it passes them lowered. The stored tags and content are not affected. |
| Query.CapitalTagNeverMatched | smartnotes.py:134-135 | A note whose only tag contains a capital letter, as an explicit tag can, is matched by no tag filter. |
| Query.MatchesOwnContent | smartnotes.py:138-140 | A search for any exact piece of a note's content finds the note. |
| Query.Select | smartnotes.py:131-140 | A note is kept exactly when it is in the store and passes the lowered tag filter and the lowered search. With no filters, the whole store in order. Order and multiplicity are given by `Query.SelectConcat`. |
| Query.SelectConcat | smartnotes.py:135-140 | The filter works note by note, keeping a note exactly when it matches, and commutes with concatenation: the kept notes stay in store order, each as often as it occurs. |
| Query.Limit | smartnotes.py:146-147 | Always a prefix. Zero keeps all; a positive limit keeps `min(limit, n)`; a negative limit drops `min(-limit, n)` from the back. |
| Query.ListNotes | smartnotes.py:129-147 | Only matching notes of the store, newest first, each taken no more often than it matches. Without a limit, all matching notes. A positive limit keeps exactly `min(limit, matches)`; a negative one drops `min(-limit, matches)`. Any matching note left out is no newer than every note listed. Which notes are kept at a tie is given by `Query.ListNotesLimit`. |
| Query.PrefixKeepsNewest | smartnotes.py:143-147 | A prefix of a newest-first list is newest-first, and nothing cut off is newer than anything kept. |
| Query.ListNotesStable | smartnotes.py:143 | Notes with equal creation times are listed in the order the filter keeps them, which `Query.SelectConcat` shows is store order. |
| Query.ListNotesLimit | smartnotes.py:143-147 | A limited listing is the unlimited, stably sorted listing cut by `[:limit]`, so ties at the cut keep the earlier notes of the store. |
| Query.ListByTagOfThree | smartnotes.py:134-143 | Of three notes, filtering by a tag the first and third carry lists the third, then the first. |
| Query.AllTagsMembers | smartnotes.py:251-253 | A tag is in use exactly when some note carries it. |
| Query.TaggedCount | smartnotes.py:263 | A tag is carried by at most as many notes as there are. |
| Query.TaggedCountFilter | smartnotes.py:263 | The count equals the length of the list of notes whose tags contain the tag. |
| Query.TaggedCountPositive | smartnotes.py:263 | A tag in use is carried by at least one note. |
| Query.SortedTags | smartnotes.py:259 | Strictly increasing, and holds exactly the tags in use. |
| Query.ListTags | smartnotes.py:249-265 | Tags strictly increasing, each in-use tag exactly once. Each count is the number of notes carrying the tag, between 1 and the number of notes. |
| Query.ListTagsOfThree | smartnotes.py:249-265 | Notes tagged `p`, `w` and both give `[(p, 2), (w, 2)]`. |
| Query.FirstNewestUnique | smartnotes.py:344 | At most one position is the first of the most recent notes. |
| Query.TotalChars | smartnotes.py:340 | No single content is longer than the total. |
| Query.TotalCharsConcat | smartnotes.py:340 | The total adds up over concatenation, and one note contributes its content length: it is the sum of the lengths. |
| Query.ScanNotes | smartnotes.py:336-344 | One pass gathers every tag of every note in order, sums the content lengths, and finds the first most recent note. |
| Query.GetStats | smartnotes.py:329-344 | Nothing exactly for an empty store. Otherwise: the note count, the number of distinct tags over all notes, `FloorMean` of the total content length, and the note at `FirstNewest`. |
| Query.FloorMean | smartnotes.py:341 | `total // n` is the largest whole number whose product with `n` does not exceed the total. |
| Query.FirstNewest | smartnotes.py:344 | Picks the first note whose creation time no note exceeds, as `max` does: every earlier note is strictly older. |
| Query.TagsInUseCounted | smartnotes.py:259-263 | Every tag taken from the notes is counted at least once. |
| Query.ParseFormat | smartnotes.py:278-286 | Unknown exactly when the name is not `txt`, `md` or `json`. |
| Query.Export | smartnotes.py:267-292 | An empty store is refused first, then an unknown format, then a failed write. Otherwise every note is written exactly once: oldest first for text and Markdown, in store order for JSON. |

## Left out

- Loading and saving the notes file and the config file are not modelled.
  Their outcome is the `saved` argument. A corrupt file falling back to an
  empty store is not modelled.
- All printing is left out: the messages, the 80-character truncation in
  `list_notes`, `show_note`'s layout and the statistics table.
- The export writers' file contents are left out: headers, per-note layout
  and JSON indentation. So are the default timestamped filename and the
  exception text.
- The clock is left out. Timestamps are arguments, compared as strings,
  which is what the program does.
- Query.Export: the write either fails as a whole or succeeds as a whole.
  A failure partway through writing is not distinguished.
- Text.Lower and Text.IsWordChar: `lower()` maps only ASCII capitals, and
  `\w` is only ASCII letters, digits and `_`. Python applies Unicode rules
  to both, so on non-ASCII text the model gives different answers. For
  `#École`, Python extracts the tag `école`; Tagging.ExtractTags extracts
  none, since `É` is not a word character here. For `straße`, Python's
  `\b` finds no keyword, while Tagging.KeywordCandidates yields `stra`.
  Query.Select lowers the filters and contents the same ASCII-only way.
  `str.isspace()`, used by Text.Strip, is modelled by its full fixed set of
  characters.
- Tagging.ExtractKeywords: CPython's set iteration order is not modelled.
  It is the `order` argument. The contract covers any order, not the
  particular one CPython produces.
- Store.TagUnion: `list(set(...))` is modelled as first-occurrence
  deduplication. Its contract and every lemma about it speak only of
  membership and the absence of duplicates, not of the order.
- `show_note`, the argument parser, the Windows console encoding
  workaround, `setup.py` and the tests are not part of this model. The
  tests are only cited for the examples they check.
- The `default_tags` setting is left out: no operation reads it.
- Store.Note makes every field mandatory. The source reads notes with
  defaults (`n.get("tags", [])`, `n.get("content", "")`,
  `n.get("created", "")`), which matter only for notes loaded from a
  hand-edited file with missing keys. Such notes are not modelled.

=== FILE: options.dfy ===
/** The "value or absent" result the note store returns where the program
    returns a note or Python's `None`. */
module Options {

  datatype Option<+T> = None | Some(value: T)
}

=== FILE: query.dfy ===
/** The read-only views of the store: the filtered, newest-first note list,
    the tag index with per-tag counts, the statistics summary, and the
    choice between the export formats. */
module Query {
  import opened Options
  import opened Seqs
  import opened Text
  import opened Sorting
  import opened Store

  /** The sort key used by listing, export and statistics. */
  function Created(n: Note): string
  {
    n.created
  }

  // ---------------------------------------------------------------------
  // list_notes
  // ---------------------------------------------------------------------

  /** A note passes both list filters. The empty string stands for an
      absent filter, as an empty filter is falsy and skipped. The tag
      filter is lowered and must be one of the note's tags exactly; the
      search term is lowered and must occur in the lowered content. */
  predicate Matches(n: Note, tagFilter: string, searchTerm: string)
  {
    && (tagFilter == [] || Lower(tagFilter) in n.tags)
    && (searchTerm == [] || IsInfix(Lower(searchTerm), Lower(n.content)))
  }

  /** Lowering the filter arguments first changes nothing, as both are
      lowered anyway; the stored tags and content are not lowered by this. */
  lemma MatchesIgnoresCase(n: Note, tagFilter: string, searchTerm: string)
    ensures Matches(n, tagFilter, searchTerm) == Matches(n, Lower(tagFilter), Lower(searchTerm))
  {
    LowerIsLowercase(tagFilter);
    LowerIsLowercase(searchTerm);
  }

  /** A note is found by any exact piece of its own content. */
  lemma MatchesOwnContent(n: Note, searchTerm: string)
    requires IsInfix(searchTerm, n.content)
    ensures Matches(n, [], searchTerm)
  {
    LowerInfix(searchTerm, n.content);
  }

  /** The tag filter lowers only the filter, not the stored tags: a note
      whose only tag has a capital letter is matched by no tag filter. */
  lemma CapitalTagNeverMatched(n: Note, t: string, f: string)
    requires t in n.tags && !IsLowercase(t) && f != []
    requires forall u | u in n.tags :: u == t
    ensures !Matches(n, f, [])
  {
    LowerIsLowercase(f);
  }

  /** The notes passing both filters, in store order. */
  function Select(notes: seq<Note>, tagFilter: string, searchTerm: string): (r: seq<Note>)
    ensures forall n :: n in r <==> n in notes && Matches(n, tagFilter, searchTerm)
    ensures tagFilter == [] && searchTerm == [] ==> r == notes
  {
    var keep := (n: Note) => Matches(n, tagFilter, searchTerm);
    if tagFilter == [] && searchTerm == [] then
      FilterKeepsAll(notes, keep);
      Filter(notes, keep)
    else
      Filter(notes, keep)
  }

  /** The filter keeps store order and multiplicity, as a list
      comprehension does: it works note by note and commutes with
      concatenation. */
  lemma SelectConcat(a: seq<Note>, b: seq<Note>, tagFilter: string, searchTerm: string)
    ensures Select(a + b, tagFilter, searchTerm) == Select(a, tagFilter, searchTerm) + Select(b, tagFilter, searchTerm)
    ensures forall n: Note :: Select([n], tagFilter, searchTerm) == if Matches(n, tagFilter, searchTerm) then [n] else []
  {
    var keep := (n: Note) => Matches(n, tagFilter, searchTerm);
    FilterConcat(a, b, keep);
    forall n: Note
      ensures Select([n], tagFilter, searchTerm) == if Matches(n, tagFilter, searchTerm) then [n] else []
    {
      FilterCons(n, [], keep);
      assert [n] + [] == [n];
    }
  }

  /** Python's `s[:limit]` guarded by `if limit:`. Zero stands for an
      absent limit and keeps everything; a positive limit keeps at most that
      many from the front; a negative one drops that many from the back. */
  function Limit<T>(s: seq<T>, limit: int): (r: seq<T>)
    ensures |r| <= |s| && r == s[..|r|]
    ensures limit == 0 ==> r == s
    ensures limit > 0 ==> |r| == Min(limit, |s|)
    ensures limit < 0 ==> |r| + Min(-limit, |s|) == |s|
  {
    if limit == 0 then s
    else if limit > 0 then s[..Min(limit, |s|)]
    else s[..|s| - Min(-limit, |s|)]
  }

  /** `list_notes`: the matching notes, newest creation time first (a
      stable sort, so equal times keep store order), cut to the limit. */
  function ListNotes(notes: seq<Note>, tagFilter: string, searchTerm: string, limit: int): (r: seq<Note>)
    ensures forall n | n in r :: n in notes && Matches(n, tagFilter, searchTerm)
    ensures SortedBy(r, Created, true)
    ensures limit == 0 ==> multiset(r) == multiset(Select(notes, tagFilter, searchTerm))
    ensures multiset(r) <= multiset(Select(notes, tagFilter, searchTerm))
    ensures limit > 0 ==> |r| == Min(limit, |Select(notes, tagFilter, searchTerm)|)
    ensures limit < 0 ==> |r| + Min(-limit, |Select(notes, tagFilter, searchTerm)|)
                          == |Select(notes, tagFilter, searchTerm)|
    ensures forall n, m | n in notes && Matches(n, tagFilter, searchTerm) && n !in r && m in r ::
              LexLe(n.created, m.created)
  {
    var sorted := SortBy(Select(notes, tagFilter, searchTerm), Created, true);
    var r := Limit(sorted, limit);
    PrefixKeepsNewest(sorted, r);
    PrefixSubMultiset(sorted, r);
    forall n | n in notes && Matches(n, tagFilter, searchTerm)
      ensures n in sorted
    {
      assert n in multiset(Select(notes, tagFilter, searchTerm));
    }
    forall n | n in r
      ensures n in Select(notes, tagFilter, searchTerm)
    {
      assert n in multiset(sorted);
    }
    r
  }

  /** A prefix of a newest-first sequence holds its newest elements: what
      is cut off is no newer than anything kept. */
  lemma PrefixKeepsNewest(sorted: seq<Note>, r: seq<Note>)
    requires SortedBy(sorted, Created, true) && |r| <= |sorted| && r == sorted[..|r|]
    ensures SortedBy(r, Created, true)
    ensures forall n, m | n in sorted && n !in r && m in r :: LexLe(n.created, m.created)
  {
    assert forall i :: 0 <= i < |r| ==> r[i] == sorted[i];
    forall n, m | n in sorted && n !in r && m in r
      ensures LexLe(n.created, m.created)
    {
      var j :| 0 <= j < |sorted| && sorted[j] == n;
      var i :| 0 <= i < |r| && r[i] == m;
      assert |r| <= j;
      assert sorted[i] == m;
    }
  }

  /** The limit cuts the full listing: a limited listing is the unlimited
      one, stable order included, cut as `[:limit]` cuts. */
  lemma ListNotesLimit(notes: seq<Note>, tagFilter: string, searchTerm: string, limit: int)
    ensures ListNotes(notes, tagFilter, searchTerm, limit)
         == Limit(ListNotes(notes, tagFilter, searchTerm, 0), limit)
  {
  }

  /** A prefix takes each element no more often than the whole does. */
  lemma PrefixSubMultiset<T>(s: seq<T>, r: seq<T>)
    requires |r| <= |s| && r == s[..|r|]
    ensures multiset(r) <= multiset(s)
  {
    assert s == r + s[|r|..];
  }

  /** Notes created at the same time are listed in store order. */
  lemma ListNotesStable(notes: seq<Note>, tagFilter: string, searchTerm: string, k: string)
    ensures WithKey(ListNotes(notes, tagFilter, searchTerm, 0), Created, k)
         == WithKey(Select(notes, tagFilter, searchTerm), Created, k)
  {
    SortStable(Select(notes, tagFilter, searchTerm), Created, true, k);
  }

  /** Filtering by a tag that the oldest and the newest of three notes
      carry lists exactly those two, newest first. */
  lemma ListByTagOfThree(notes: seq<Note>, tag: string)
    requires |notes| == 3 && tag != []
    requires Lower(tag) in notes[0].tags && Lower(tag) !in notes[1].tags && Lower(tag) in notes[2].tags
    requires LexLess(notes[0].created, notes[1].created) && LexLess(notes[1].created, notes[2].created)
    ensures ListNotes(notes, tag, [], 0) == [notes[2], notes[0]]
  {
    LexLessTransitive(notes[0].created, notes[1].created, notes[2].created);
    var keep := (n: Note) => Matches(n, tag, []);
    assert Select(notes, tag, []) == [notes[0], notes[2]] by {
      assert notes == [notes[0]] + [notes[1]] + [notes[2]];
      FilterConcat([notes[0]] + [notes[1]], [notes[2]], keep);
      FilterConcat([notes[0]], [notes[1]], keep);
    }
    SortTwoNewestFirst(notes[0], notes[2]);
  }

  /** Two notes of different ages sort newest first. */
  lemma SortTwoNewestFirst(a: Note, c: Note)
    requires LexLess(a.created, c.created)
    ensures SortBy([a, c], Created, true) == [c, a]
  {
    assert [a, c][..1] == [a];
    assert SortBy([a], Created, true) == [a];
    assert SortBy([a, c], Created, true) == Insert([a], c, Created, true);
  }

  // ---------------------------------------------------------------------
  // list_tags
  // ---------------------------------------------------------------------

  /** Every note's tags, note after note. */
  function AllTags(notes: seq<Note>): seq<string>
  {
    TagsUpTo(notes, |notes|)
  }

  /** The tags of the first `k` notes, note after note. */
  function TagsUpTo(notes: seq<Note>, k: nat): seq<string>
    requires k <= |notes|
  {
    if k == 0 then [] else TagsUpTo(notes, k - 1) + notes[k - 1].tags
  }

  /** A tag is in use exactly when some note carries it. */
  lemma AllTagsMembers(notes: seq<Note>, t: string)
    ensures t in AllTags(notes) <==> exists i :: 0 <= i < |notes| && t in notes[i].tags
  {
    TagsUpToMembers(notes, |notes|, t);
  }

  lemma {:induction false} TagsUpToMembers(notes: seq<Note>, k: nat, t: string)
    requires k <= |notes|
    ensures t in TagsUpTo(notes, k) <==> exists i :: 0 <= i < k && t in notes[i].tags
  {
    if k > 0 {
      TagsUpToMembers(notes, k - 1, t);
    }
  }

  /** How many notes carry `tag`. */
  function TaggedCount(notes: seq<Note>, tag: string): (c: nat)
    ensures c <= |notes|
  {
    CountUpTo(notes, tag, |notes|)
  }

  /** How many of the first `k` notes carry `tag`. */
  function CountUpTo(notes: seq<Note>, tag: string, k: nat): (c: nat)
    requires k <= |notes|
    ensures c <= k
  {
    if k == 0 then 0 else CountUpTo(notes, tag, k - 1) + (if tag in notes[k - 1].tags then 1 else 0)
  }

  datatype TagCount = TagCount(tag: string, count: nat)

  function Identity(s: string): string
  {
    s
  }

  /** The distinct tags in increasing string order: `sorted(all_tags)`. */
  function SortedTags(notes: seq<Note>): (keys: seq<string>)
    ensures forall i, j :: 0 <= i < j < |keys| ==> LexLess(keys[i], keys[j])
    ensures forall t :: t in keys <==> t in AllTags(notes)
  {
    var distinct := Dedup(AllTags(notes));
    var keys := SortBy(distinct, Identity, false);
    AscendingDistinct(keys, distinct);
    assert forall t :: t in keys <==> t in multiset(distinct);
    keys
  }

  /** The count is the length of `[n for n in notes if tag in n.tags]`. */
  lemma TaggedCountFilter(notes: seq<Note>, tag: string)
    ensures TaggedCount(notes, tag) == |Filter(notes, (n: Note) => tag in n.tags)|
  {
    CountUpToFilter(notes, tag, |notes|, (n: Note) => tag in n.tags);
    assert notes[..|notes|] == notes;
  }

  lemma {:induction false} CountUpToFilter(notes: seq<Note>, tag: string, k: nat, p: Note -> bool)
    requires k <= |notes|
    requires forall n :: p(n) <==> tag in n.tags
    ensures CountUpTo(notes, tag, k) == |Filter(notes[..k], p)|
  {
    if k == 0 {
      assert notes[..0] == [];
    } else {
      CountUpToFilter(notes, tag, k - 1, p);
      assert notes[..k] == notes[..k - 1] + [notes[k - 1]];
      FilterConcat(notes[..k - 1], [notes[k - 1]], p);
      FilterCons(notes[k - 1], [], p);
    }
  }

  /** A tag in use is carried by at least one note. */
  lemma TaggedCountPositive(notes: seq<Note>, t: string)
    requires t in AllTags(notes)
    ensures 1 <= TaggedCount(notes, t)
  {
    CountUpToPositive(notes, t, |notes|);
  }

  lemma {:induction false} CountUpToPositive(notes: seq<Note>, t: string, k: nat)
    requires k <= |notes| && t in TagsUpTo(notes, k)
    ensures 1 <= CountUpTo(notes, t, k)
  {
    if t !in notes[k - 1].tags {
      CountUpToPositive(notes, t, k - 1);
    }
  }

  /** `list_tags`: every distinct tag once, in increasing string order,
      with the number of notes carrying it. */
  function ListTags(notes: seq<Note>): (r: seq<TagCount>)
    ensures forall i, j :: 0 <= i < j < |r| ==> LexLess(r[i].tag, r[j].tag)
    ensures forall t :: t in AllTags(notes) <==> exists i :: 0 <= i < |r| && r[i].tag == t
    ensures forall i :: 0 <= i < |r| ==>
              r[i].count == TaggedCount(notes, r[i].tag) && 1 <= r[i].count <= |notes|
  {
    var keys := SortedTags(notes);
    TagsInUseCounted(notes, keys);
    var r := Counts(notes, keys);
    assert forall t :: t in keys ==> exists i :: 0 <= i < |r| && r[i].tag == t by {
      forall t | t in keys
        ensures exists i :: 0 <= i < |r| && r[i].tag == t
      {
        var i :| 0 <= i < |keys| && keys[i] == t;
        assert r[i].tag == t;
      }
    }
    r
  }

  /** Every tag in use is carried by at least one note. */
  lemma TagsInUseCounted(notes: seq<Note>, keys: seq<string>)
    requires forall t :: t in keys ==> t in AllTags(notes)
    ensures forall i :: 0 <= i < |keys| ==> 1 <= TaggedCount(notes, keys[i])
  {
    forall i | 0 <= i < |keys|
      ensures 1 <= TaggedCount(notes, keys[i])
    {
      TaggedCountPositive(notes, keys[i]);
    }
  }

  /** Pairs each tag of `keys` with the number of notes carrying it. */
  function Counts(notes: seq<Note>, keys: seq<string>): (r: seq<TagCount>)
    ensures |r| == |keys|
    ensures forall i :: 0 <= i < |r| ==> r[i].tag == keys[i] && r[i].count == TaggedCount(notes, keys[i])
  {
    seq(|keys|, i requires 0 <= i < |keys| => TagCount(keys[i], TaggedCount(notes, keys[i])))
  }

  /** Sorting distinct strings yields a strictly increasing sequence. */
  lemma AscendingDistinct(keys: seq<string>, distinct: seq<string>)
    requires keys == SortBy(distinct, Identity, false) && NoDups(distinct)
    ensures forall i, j :: 0 <= i < j < |keys| ==> LexLess(keys[i], keys[j])
  {
    NoDupsPermutation(keys, distinct);
    forall i, j | 0 <= i < j < |keys|
      ensures LexLess(keys[i], keys[j])
    {
      assert !LexLess(Identity(keys[j]), Identity(keys[i]));
      LexLessTotal(keys[i], keys[j]);
    }
  }

  /** Three notes tagged `p`, `w`, and both: each tag is listed with count 2. */
  lemma ListTagsOfThree(notes: seq<Note>, p: string, w: string)
    requires LexLess(p, w)
    requires |notes| == 3 && notes[0].tags == [p] && notes[1].tags == [w] && notes[2].tags == [p, w]
    ensures ListTags(notes) == [TagCount(p, 2), TagCount(w, 2)]
  {
    assert p != w by {
      LexLessIrreflexive(p);
    }
    assert p in AllTags(notes) && w in AllTags(notes) && forall t | t in AllTags(notes) :: t == p || t == w by {
      AllTagsOfThree(notes);
    }
    assert TaggedCount(notes, p) == 2 && TaggedCount(notes, w) == 2 by {
      CountOfThree(notes, p);
      CountOfThree(notes, w);
    }
    ListTagsOfPair(notes, p, w);
  }

  /** A store using exactly the two tags `p < w` lists them in that order. */
  lemma ListTagsOfPair(notes: seq<Note>, p: string, w: string)
    requires LexLess(p, w)
    requires p in AllTags(notes) && w in AllTags(notes)
    requires forall t | t in AllTags(notes) :: t == p || t == w
    ensures ListTags(notes) == [TagCount(p, TaggedCount(notes, p)), TagCount(w, TaggedCount(notes, w))]
  {
    var keys := SortedTags(notes);
    AscendingPair(keys, p, w);
    CountsOfPair(notes, keys);
  }

  lemma CountsOfPair(notes: seq<Note>, keys: seq<string>)
    requires |keys| == 2
    ensures Counts(notes, keys)
         == [TagCount(keys[0], TaggedCount(notes, keys[0])), TagCount(keys[1], TaggedCount(notes, keys[1]))]
  {
  }

  lemma AllTagsOfThree(notes: seq<Note>)
    requires |notes| == 3
    ensures AllTags(notes) == notes[0].tags + notes[1].tags + notes[2].tags
  {
    assert TagsUpTo(notes, 1) == notes[0].tags;
    assert TagsUpTo(notes, 2) == notes[0].tags + notes[1].tags;
  }

  /** A strictly increasing sequence of the two strings `p < w` is `[p, w]`. */
  lemma AscendingPair(keys: seq<string>, p: string, w: string)
    requires LexLess(p, w)
    requires forall i, j :: 0 <= i < j < |keys| ==> LexLess(keys[i], keys[j])
    requires p in keys && w in keys && forall t | t in keys :: t == p || t == w
    ensures keys == [p, w]
  {
    LexLessAsymmetric(p, w);
    LexLessIrreflexive(p);
    var ip :| 0 <= ip < |keys| && keys[ip] == p;
    var iw :| 0 <= iw < |keys| && keys[iw] == w;
    assert ip < iw;
    forall i | 0 <= i < |keys|
      ensures !LexLess(keys[i], keys[i])
    {
      LexLessIrreflexive(keys[i]);
    }
    assert NoDups(keys);
    NoDupsCardinality(keys);
    assert Elems(keys) == {p, w};
  }

  /** A tag carried by exactly one of the first two notes and by the third. */
  lemma CountOfThree(notes: seq<Note>, t: string)
    requires |notes| == 3
    requires (t in notes[0].tags) != (t in notes[1].tags) && t in notes[2].tags
    ensures TaggedCount(notes, t) == 2
  {
    assert CountUpTo(notes, t, 1) == (if t in notes[0].tags then 1 else 0);
    assert CountUpTo(notes, t, 2) == 1;
  }

  // ---------------------------------------------------------------------
  // get_stats
  // ---------------------------------------------------------------------

  /** The characters of all contents together. */
  function TotalChars(notes: seq<Note>): (t: nat)
    ensures forall i :: 0 <= i < |notes| ==> |notes[i].content| <= t
  {
    CharsUpTo(notes, |notes|)
  }

  /** The characters of the first `k` contents together. */
  function CharsUpTo(notes: seq<Note>, k: nat): (c: nat)
    requires k <= |notes|
    ensures forall i :: 0 <= i < k ==> |notes[i].content| <= c
  {
    if k == 0 then 0 else CharsUpTo(notes, k - 1) + |notes[k - 1].content|
  }

  /** Note `i` is what `max` with the creation-time key returns: no note is
      newer, and every earlier note is strictly older. */
  predicate IsFirstNewest(notes: seq<Note>, i: int)
  {
    && 0 <= i < |notes|
    && (forall j :: 0 <= j < |notes| ==> LexLe(notes[j].created, notes[i].created))
    && (forall j :: 0 <= j < i ==> LexLess(notes[j].created, notes[i].created))
  }

  /** Only one note can be the first of the newest. */
  lemma FirstNewestUnique(notes: seq<Note>, i: int, j: int)
    requires IsFirstNewest(notes, i) && IsFirstNewest(notes, j)
    ensures i == j
  {
    assert !LexLess(notes[i].created, notes[j].created);
    assert !LexLess(notes[j].created, notes[i].created);
  }

  datatype Stats = Stats(total: nat, tagCount: nat, averageLength: nat, mostRecent: Note)

  /** `get_stats`: nothing for an empty store; otherwise the note count,
      the number of distinct tags, the floor of the mean content length,
      and the first of the most recently created notes. */
  method GetStats(notes: seq<Note>) returns (r: Option<Stats>)
    ensures r.None? <==> |notes| == 0
    ensures r.Some? ==> Summarises(notes, r.value)
  {
    if |notes| == 0 {
      return None;
    }
    var tags, chars, best := ScanNotes(notes);
    r := Some(Stats(|notes|, |Elems(tags)|, FloorMean(chars, |notes|), notes[best]));
    FirstNewestUnique(notes, best, FirstNewest(notes));
  }

  /** The total length adds up over concatenation; with the one-note case
      this is `sum(len(n.content) for n in notes)`. */
  lemma TotalCharsConcat(a: seq<Note>, b: seq<Note>, n: Note)
    ensures TotalChars(a + b) == TotalChars(a) + TotalChars(b)
    ensures TotalChars([n]) == |n.content|
  {
    CharsUpToConcat(a, b, |b|);
    assert CharsUpTo([n], 1) == CharsUpTo([n], 0) + |n.content|;
  }

  lemma {:induction false} CharsUpToConcat(a: seq<Note>, b: seq<Note>, k: nat)
    requires k <= |b|
    ensures CharsUpTo(a + b, |a| + k) == TotalChars(a) + CharsUpTo(b, k)
  {
    if k == 0 {
      CharsUpToPrefix(a, b, |a|);
    } else {
      CharsUpToConcat(a, b, k - 1);
      assert (a + b)[|a| + k - 1] == b[k - 1];
    }
  }

  lemma {:induction false} CharsUpToPrefix(a: seq<Note>, b: seq<Note>, j: nat)
    requires j <= |a|
    ensures CharsUpTo(a + b, j) == CharsUpTo(a, j)
  {
    if j > 0 {
      CharsUpToPrefix(a, b, j - 1);
      assert (a + b)[j - 1] == a[j - 1];
    }
  }

  /** The single pass of `get_stats`: gathers every tag, adds up the
      content lengths, and keeps the first of the newest notes as `max`
      does, replacing its candidate only by a strictly newer note. */
  method ScanNotes(notes: seq<Note>) returns (tags: seq<string>, chars: nat, best: nat)
    requires |notes| > 0
    ensures tags == AllTags(notes)
    ensures chars == TotalChars(notes)
    ensures IsFirstNewest(notes, best)
  {
    tags, chars, best := [], 0, 0;
    var k := 0;
    while k < |notes|
      invariant 0 <= k <= |notes|
      invariant tags == TagsUpTo(notes, k)
      invariant chars == CharsUpTo(notes, k)
      invariant NewestSoFar(notes, best, k)
    {
      tags := tags + notes[k].tags;
      chars := chars + |notes[k].content|;
      NewestStep(notes, best, k);
      if LexLess(notes[best].created, notes[k].created) {
        best := k;
      }
      k := k + 1;
    }
  }

  /** What the statistics of a non-empty store are: the note count, the
      number of distinct tags, the mean content length rounded down, and
      the first of the newest notes. */
  predicate Summarises(notes: seq<Note>, s: Stats)
  {
    && |notes| > 0
    && s.total == |notes|
    && s.tagCount == |Elems(AllTags(notes))|
    && s.averageLength == FloorMean(TotalChars(notes), |notes|)
    && s.mostRecent == notes[FirstNewest(notes)]
  }

  /** Python's `total // n` for a count `n` of at least one: the largest
      whole number of `n`-sized shares that fit in `total`. */
  function FloorMean(total: nat, n: nat): (m: nat)
    requires n > 0
    ensures m * n <= total
    ensures total - m * n < n
  {
    total / n
  }

  /** `max(notes, key=created)`: the position of the first of the newest
      notes, found by scanning from the front. */
  function FirstNewest(notes: seq<Note>): (i: nat)
    requires |notes| > 0
    ensures IsFirstNewest(notes, i)
  {
    NewestUpTo(notes, |notes|)
  }

  /** The first of the newest among the first `k` notes. */
  function NewestUpTo(notes: seq<Note>, k: nat): (best: nat)
    requires 0 < k <= |notes|
    ensures best < k && NewestSoFar(notes, best, k)
  {
    if k == 1 then
      LexLessIrreflexive(notes[0].created);
      0
    else
      var b := NewestUpTo(notes, k - 1);
      NewestStep(notes, b, k - 1);
      if LexLess(notes[b].created, notes[k - 1].created) then k - 1 else b
  }

  /** Scanning the first `k` notes, `best` is the first of the newest seen. */
  predicate NewestSoFar(notes: seq<Note>, best: int, k: int)
  {
    && 0 <= best < |notes| && best <= k <= |notes|
    && (forall j :: 0 <= j < k ==> LexLe(notes[j].created, notes[best].created))
    && (forall j :: 0 <= j < best ==> LexLess(notes[j].created, notes[best].created))
  }

  /** `max` replaces its candidate only by a strictly newer note. */
  lemma NewestStep(notes: seq<Note>, best: int, k: int)
    requires NewestSoFar(notes, best, k) && k < |notes|
    ensures NewestSoFar(notes, if LexLess(notes[best].created, notes[k].created) then k else best, k + 1)
  {
    if LexLess(notes[best].created, notes[k].created) {
      forall j | 0 <= j < k
        ensures LexLess(notes[j].created, notes[k].created)
        ensures LexLe(notes[j].created, notes[k].created)
      {
        LexLeLess(notes[j].created, notes[best].created, notes[k].created);
        LexLessAsymmetric(notes[j].created, notes[k].created);
      }
      LexLessIrreflexive(notes[k].created);
    }
  }

  /** `a <= b < c` gives `a < c` on strings. */
  lemma LexLeLess(a: string, b: string, c: string)
    requires LexLe(a, b) && LexLess(b, c)
    ensures LexLess(a, c)
  {
    LexLessTotal(a, b);
    if a != b {
      LexLessTransitive(a, b, c);
    }
  }

  // ---------------------------------------------------------------------
  // export_notes
  // ---------------------------------------------------------------------

  datatype Format = Txt | Markdown | Json

  /** The format names the exporter recognises. */
  function ParseFormat(name: string): (r: Option<Format>)
    ensures r.None? <==> name != "txt" && name != "md" && name != "json"
  {
    if name == "txt" then Some(Txt)
    else if name == "md" then Some(Markdown)
    else if name == "json" then Some(Json)
    else None
  }

  datatype ExportResult = NoNotes | UnsupportedFormat | Exported(written: seq<Note>) | ExportFailed

  /** `export_notes`: refuses an empty store, then an unknown format, and
      otherwise writes the notes, oldest first for the text and Markdown
      formats and in store order for JSON. `writeOk` stands for whether the
      file could be written. */
  function Export(notes: seq<Note>, format: string, writeOk: bool): (r: ExportResult)
    ensures r == NoNotes <==> |notes| == 0
    ensures r == UnsupportedFormat <==> |notes| > 0 && ParseFormat(format).None?
    ensures r == ExportFailed <==> |notes| > 0 && ParseFormat(format).Some? && !writeOk
    ensures r.Exported? ==> multiset(r.written) == multiset(notes)
    ensures r.Exported? && format != "json" ==> SortedBy(r.written, Created, false)
    ensures r.Exported? && format == "json" ==> r.written == notes
  {
    if |notes| == 0 then NoNotes
    else match ParseFormat(format)
      case None => UnsupportedFormat
      case Some(f) =>
        if !writeOk then ExportFailed
        else if f == Json then Exported(notes)
        else Exported(SortBy(notes, Created, false))
  }
}

=== FILE: seqs.dfy ===
/** Sequence helpers shared by the note store: duplicate freedom, the
    first-occurrence de-duplication that stands for `list(set(...))`, and the
    order-preserving filter that stands for a list comprehension with an `if`. */
module Seqs {

  /** No element occurs twice. */
  predicate NoDups<T(==)>(s: seq<T>)
  {
    forall i, j :: 0 <= i < j < |s| ==> s[i] != s[j]
  }

  /** The elements of `s`, as a set. */
  function Elems<T>(s: seq<T>): set<T>
  {
    set x | x in s
  }

  /** `order` lists every element of `elems` exactly once: one possible
      iteration order of a Python set holding the elements of `elems`. */
  predicate IsSetOrder<T(==)>(order: seq<T>, elems: seq<T>)
  {
    && NoDups(order)
    && (forall x | x in order :: x in elems)
    && (forall x | x in elems :: x in order)
  }

  /** Keeps the first occurrence of every element, in order. */
  function Dedup<T(==,!new)>(s: seq<T>): (r: seq<T>)
    ensures NoDups(r)
    ensures forall x :: x in r <==> x in s
    ensures |r| <= |s|
    decreases |s|
  {
    if |s| == 0 then []
    else
      var rest := Dedup(s[..|s| - 1]);
      var x := s[|s| - 1];
      assert s == s[..|s| - 1] + [x];
      if x in rest then rest else rest + [x]
  }

  /** The smaller of two integers, as Python's `min`. */
  function Min(a: int, b: int): (m: int)
    ensures m <= a && m <= b
    ensures m == a || m == b
  {
    if a < b then a else b
  }

  /** The elements of `s` that satisfy `p`, in their original order. */
  function Filter<T(!new)>(s: seq<T>, p: T -> bool): (r: seq<T>)
    ensures |r| <= |s|
    ensures forall i :: 0 <= i < |r| ==> p(r[i])
    ensures forall x :: x in r <==> x in s && p(x)
    decreases |s|
  {
    if |s| == 0 then []
    else (if p(s[0]) then [s[0]] else []) + Filter(s[1..], p)
  }

  /** Filtering commutes with concatenation, so the filter keeps the
      relative order of the elements it keeps. */
  lemma {:induction false} FilterConcat<T(!new)>(a: seq<T>, b: seq<T>, p: T -> bool)
    ensures Filter(a + b, p) == Filter(a, p) + Filter(b, p)
    decreases |a|
  {
    if |a| == 0 {
      assert a + b == b;
    } else {
      var h, t := a[0], a[1..];
      assert a == [h] + t;
      assert a + b == [h] + (t + b);
      FilterConcat(t, b, p);
      FilterCons(h, t + b, p);
      FilterCons(h, t, p);
      Assoc(Filter([h], p), Filter(t, p), Filter(b, p));
    }
  }

  /** Filtering a sequence with a known first element. */
  lemma FilterCons<T(!new)>(h: T, t: seq<T>, p: T -> bool)
    ensures Filter([h] + t, p) == Filter([h], p) + Filter(t, p)
    ensures Filter([h], p) == if p(h) then [h] else []
  {
    assert ([h] + t)[1..] == t;
    assert [h][1..] == [];
  }

  /** A filter that keeps everything is the identity. */
  lemma {:induction false} FilterKeepsAll<T(!new)>(s: seq<T>, p: T -> bool)
    requires forall i :: 0 <= i < |s| ==> p(s[i])
    ensures Filter(s, p) == s
    decreases |s|
  {
    if |s| > 0 {
      FilterKeepsAll(s[1..], p);
    }
  }

  /** A filter that drops some element is strictly shorter. */
  lemma {:induction false} FilterDrops<T(!new)>(s: seq<T>, p: T -> bool, i: int)
    requires 0 <= i < |s| && !p(s[i])
    ensures |Filter(s, p)| < |s|
    decreases |s|
  {
    if i > 0 {
      assert s[1..][i - 1] == s[i];
      FilterDrops(s[1..], p, i - 1);
    }
  }

  /** Concatenation is associative. */
  lemma Assoc<T>(x: seq<T>, y: seq<T>, z: seq<T>)
    ensures x + (y + z) == (x + y) + z
  {
  }

  /** Dropping the head of `a + [c] + b` drops the head of `a`. */
  lemma TailOfJoin<T>(a: seq<T>, c: T, b: seq<T>)
    requires |a| > 0
    ensures (a + [c] + b)[0] == a[0]
    ensures (a + [c] + b)[1..] == a[1..] + [c] + b
  {
  }

  /** A sequence of three elements, as the concatenation of its parts. */
  lemma ThreeParts<T>(s: seq<T>)
    requires |s| == 3
    ensures s == ([s[0]] + [s[1]]) + [s[2]]
  {
  }

  /** Regrouping `p + (m + q)` as `(p + m) + q`, stated on names so the
      solver need not look inside the parts. */
  lemma Regroup<T>(whole: seq<T>, p: seq<T>, rest: seq<T>, m: seq<T>, q: seq<T>, left: seq<T>)
    requires whole == p + rest && rest == m + q && left == p + m
    ensures whole == left + q
  {
  }

  /** A duplicate-free sequence has as many elements as its set. */
  lemma {:induction false} NoDupsCardinality<T>(s: seq<T>)
    requires NoDups(s)
    ensures |Elems(s)| == |s|
    decreases |s|
  {
    if |s| > 0 {
      var t := s[..|s| - 1];
      var x := s[|s| - 1];
      assert s == t + [x];
      assert NoDups(t);
      NoDupsCardinality(t);
      assert x !in Elems(t);
      assert Elems(s) == Elems(t) + {x};
    }
  }

  /** The de-duplicated sequence is an iteration order of the elements. */
  lemma DedupIsSetOrder<T(!new)>(s: seq<T>)
    ensures IsSetOrder(Dedup(s), s)
    ensures |Dedup(s)| == |Elems(s)|
  {
    NoDupsCardinality(Dedup(s));
    assert Elems(Dedup(s)) == Elems(s);
  }
  /** In a duplicate-free sequence every element occurs at most once. */
  lemma {:induction false} NoDupsMultiplicity<T>(s: seq<T>, x: T)
    requires NoDups(s)
    ensures multiset(s)[x] <= 1
    decreases |s|
  {
    if |s| > 0 {
      var t := s[..|s| - 1];
      assert s == t + [s[|s| - 1]];
      assert NoDups(t);
      NoDupsMultiplicity(t, x);
      if x == s[|s| - 1] {
        assert x !in t;
      }
    }
  }

  /** A rearrangement of a duplicate-free sequence is duplicate-free. */
  lemma NoDupsPermutation<T>(a: seq<T>, b: seq<T>)
    requires multiset(a) == multiset(b) && NoDups(b)
    ensures NoDups(a)
  {
    forall i, j | 0 <= i < j < |a|
      ensures a[i] != a[j]
    {
      if a[i] == a[j] {
        var x := a[i];
        assert a == a[..j] + a[j..];
        assert x in a[..j] && x == a[j..][0];
        assert multiset(a)[x] == multiset(a[..j])[x] + multiset(a[j..])[x];
        NoDupsMultiplicity(b, x);
        assert false;
      }
    }
  }
}

=== FILE: sorting.dfy ===
/** Python's `sorted(s, key=..., reverse=...)` on string keys, as a stable
    insertion sort: elements with equal keys keep their original order, in
    both directions, as Python guarantees. */
module Sorting {
  import opened Text
  import opened Seqs

  /** An element with key `a` must be placed strictly before one with key `b`. */
  predicate Before(descending: bool, a: string, b: string)
  {
    if descending then LexLess(b, a) else LexLess(a, b)
  }

  /** No element is strictly due before an element that precedes it. */
  predicate SortedBy<T>(s: seq<T>, key: T -> string, descending: bool)
  {
    forall i, j :: 0 <= i < j < |s| ==> !Before(descending, key(s[j]), key(s[i]))
  }

  lemma BeforeIrreflexive(d: bool, a: string)
    ensures !Before(d, a, a)
  {
    LexLessIrreflexive(a);
  }

  /** `a` strictly before `b`, and `c` not before `b`, puts `a` strictly before `c`. */
  lemma BeforeThenNotBefore(d: bool, a: string, b: string, c: string)
    requires Before(d, a, b) && !Before(d, c, b)
    ensures Before(d, a, c)
  {
    LexLessTotal(b, c);
    if d {
      if b != c {
        LexLessTransitive(c, b, a);
      }
    } else {
      if b != c {
        LexLessTransitive(a, b, c);
      }
    }
  }

  lemma BeforeTransitive(d: bool, a: string, b: string, c: string)
    requires Before(d, a, b) && Before(d, b, c)
    ensures Before(d, a, c)
  {
    if d { LexLessTransitive(c, b, a); } else { LexLessTransitive(a, b, c); }
  }

  /** Putting in front an element strictly due before the head keeps order. */
  lemma ConsBeforeSorted<T>(s: seq<T>, x: T, key: T -> string, descending: bool)
    requires SortedBy(s, key, descending)
    requires |s| > 0 && Before(descending, key(x), key(s[0]))
    ensures SortedBy([x] + s, key, descending)
  {
    var r := [x] + s;
    forall i, j | 0 <= i < j < |r|
      ensures !Before(descending, key(r[j]), key(r[i]))
    {
      if i == 0 {
        var e := s[j - 1];
        if Before(descending, key(e), key(x)) {
          if j == 1 {
            LexLessAsymmetric(key(x), key(s[0]));
          } else {
            BeforeTransitive(descending, key(e), key(x), key(s[0]));
          }
        }
      }
    }
  }

  /** Putting in front an element no later element is due before keeps order. */
  lemma ConsHeadSorted<T>(h: T, rest: seq<T>, key: T -> string, descending: bool)
    requires SortedBy(rest, key, descending)
    requires forall e :: e in multiset(rest) ==> !Before(descending, key(e), key(h))
    ensures SortedBy([h] + rest, key, descending)
  {
    var r := [h] + rest;
    forall i, j | 0 <= i < j < |r|
      ensures !Before(descending, key(r[j]), key(r[i]))
    {
      if i == 0 {
        assert rest[j - 1] in multiset(rest);
      }
    }
  }

  /** Places `x` after every element not strictly due after it. */
  function Insert<T>(s: seq<T>, x: T, key: T -> string, descending: bool): (r: seq<T>)
    requires SortedBy(s, key, descending)
    ensures SortedBy(r, key, descending)
    ensures multiset(r) == multiset(s) + multiset{x}
    ensures |r| == |s| + 1
    decreases |s|
  {
    if |s| == 0 then [x]
    else if Before(descending, key(x), key(s[0])) then
      ConsBeforeSorted(s, x, key, descending);
      [x] + s
    else
      var rest := Insert(s[1..], x, key, descending);
      assert s == [s[0]] + s[1..];
      forall e | e in multiset(rest)
        ensures !Before(descending, key(e), key(s[0]))
      {
        if e != x {
          assert e in multiset(s[1..]);
          var m :| 0 <= m < |s[1..]| && s[1..][m] == e;
          assert s[m + 1] == e;
        }
      }
      ConsHeadSorted(s[0], rest, key, descending);
      [s[0]] + rest
  }

  /** Stable sort by `key`, non-decreasing, or non-increasing when `descending`. */
  function SortBy<T>(s: seq<T>, key: T -> string, descending: bool): (r: seq<T>)
    ensures SortedBy(r, key, descending)
    ensures multiset(r) == multiset(s)
    ensures |r| == |s|
    decreases |s|
  {
    if |s| == 0 then []
    else
      assert s == s[..|s| - 1] + [s[|s| - 1]];
      Insert(SortBy(s[..|s| - 1], key, descending), s[|s| - 1], key, descending)
  }

  /** `[x]` when `x` has key `k`, and empty otherwise. */
  function KeyPart<T>(x: T, key: T -> string, k: string): seq<T>
  {
    if key(x) == k then [x] else []
  }

  /** The elements of `s` whose key is `k`, in order. */
  function WithKey<T>(s: seq<T>, key: T -> string, k: string): seq<T>
    decreases |s|
  {
    if |s| == 0 then []
    else KeyPart(s[0], key, k) + WithKey(s[1..], key, k)
  }

  lemma {:induction false} WithKeyConcat<T>(a: seq<T>, b: seq<T>, key: T -> string, k: string)
    ensures WithKey(a + b, key, k) == WithKey(a, key, k) + WithKey(b, key, k)
    decreases |a|
  {
    if |a| == 0 {
      assert a + b == b;
    } else {
      var h, t := a[0], a[1..];
      assert a == [h] + t;
      assert a + b == [h] + (t + b);
      WithKeyConcat(t, b, key, k);
      WithKeyCons(h, t + b, key, k);
      WithKeyCons(h, t, key, k);
      Assoc(KeyPart(h, key, k), WithKey(t, key, k), WithKey(b, key, k));
    }
  }

  lemma {:induction false} WithKeyNone<T>(s: seq<T>, key: T -> string, k: string)
    requires forall j :: 0 <= j < |s| ==> key(s[j]) != k
    ensures WithKey(s, key, k) == []
    decreases |s|
  {
    if |s| > 0 {
      WithKeyNone(s[1..], key, k);
    }
  }

  /** When `x` goes in front, no element of `s` shares its key. */
  lemma InsertFrontKeyFree<T>(s: seq<T>, x: T, key: T -> string, descending: bool)
    requires SortedBy(s, key, descending)
    requires |s| > 0 && Before(descending, key(x), key(s[0]))
    ensures forall j :: 0 <= j < |s| ==> key(s[j]) != key(x)
  {
    forall j | 0 <= j < |s|
      ensures key(s[j]) != key(x)
    {
      BeforeIrreflexive(descending, key(x));
      if j > 0 {
        BeforeThenNotBefore(descending, key(x), key(s[0]), key(s[j]));
      }
    }
  }

  lemma WithKeyCons<T>(h: T, t: seq<T>, key: T -> string, k: string)
    ensures WithKey([h] + t, key, k) == KeyPart(h, key, k) + WithKey(t, key, k)
  {
    assert ([h] + t)[1..] == t;
  }

  lemma InsertUnfold<T>(s: seq<T>, x: T, key: T -> string, descending: bool)
    requires SortedBy(s, key, descending) && |s| > 0
    ensures Before(descending, key(x), key(s[0])) ==> Insert(s, x, key, descending) == [x] + s
    ensures !Before(descending, key(x), key(s[0])) ==>
              Insert(s, x, key, descending) == [s[0]] + Insert(s[1..], x, key, descending)
  {
  }

  /** When `x` goes in front, it is alone with its key. */
  lemma InsertFrontWithKey<T>(s: seq<T>, x: T, key: T -> string, descending: bool, k: string)
    requires SortedBy(s, key, descending)
    requires |s| > 0 && Before(descending, key(x), key(s[0]))
    ensures WithKey(Insert(s, x, key, descending), key, k) == WithKey(s, key, k) + KeyPart(x, key, k)
  {
    InsertUnfold(s, x, key, descending);
    WithKeyCons(x, s, key, k);
    if key(x) == k {
      InsertFrontKeyFree(s, x, key, descending);
      WithKeyNone(s, key, k);
    }
  }

  /** Inserting `x` puts it after every element that shares its key. */
  lemma {:induction false} InsertWithKey<T>(s: seq<T>, x: T, key: T -> string, descending: bool, k: string)
    requires SortedBy(s, key, descending)
    ensures WithKey(Insert(s, x, key, descending), key, k) == WithKey(s, key, k) + KeyPart(x, key, k)
    decreases |s|
  {
    if |s| == 0 {
      WithKeyCons(x, [], key, k);
      assert [x] + [] == [x];
    } else if Before(descending, key(x), key(s[0])) {
      InsertFrontWithKey(s, x, key, descending, k);
    } else {
      var rest := Insert(s[1..], x, key, descending);
      InsertUnfold(s, x, key, descending);
      InsertWithKey(s[1..], x, key, descending, k);
      WithKeyCons(s[0], rest, key, k);
      WithKeyCons(s[0], s[1..], key, k);
      assert [s[0]] + s[1..] == s;
      Regroup(WithKey([s[0]] + rest, key, k), KeyPart(s[0], key, k), WithKey(rest, key, k),
              WithKey(s[1..], key, k), KeyPart(x, key, k), WithKey(s, key, k));
    }
  }

  /** Sorting is stable: the elements sharing any one key come out in the
      order they went in. */
  lemma {:induction false} SortStable<T>(s: seq<T>, key: T -> string, descending: bool, k: string)
    ensures WithKey(SortBy(s, key, descending), key, k) == WithKey(s, key, k)
    decreases |s|
  {
    if |s| > 0 {
      var init := s[..|s| - 1];
      var x := s[|s| - 1];
      SortStable(init, key, descending, k);
      var sorted := SortBy(init, key, descending);
      SortByUnfold(s, key, descending);
      InsertWithKey(sorted, x, key, descending, k);
      assert s == init + [x];
      WithKeySnoc(init, x, key, k);
    }
  }

  lemma SortByUnfold<T>(s: seq<T>, key: T -> string, descending: bool)
    requires |s| > 0
    ensures SortedBy(SortBy(s[..|s| - 1], key, descending), key, descending)
    ensures SortBy(s, key, descending) == Insert(SortBy(s[..|s| - 1], key, descending), s[|s| - 1], key, descending)
  {
  }

  lemma WithKeySnoc<T>(s: seq<T>, x: T, key: T -> string, k: string)
    ensures WithKey(s + [x], key, k) == WithKey(s, key, k) + KeyPart(x, key, k)
  {
    WithKeyConcat(s, [x], key, k);
    WithKeyCons(x, [], key, k);
    assert [x] + [] == [x];
  }
}

=== FILE: store.dfy ===
/** The note store: an ordered list of notes and the operations that read
    and rewrite it. Each operation maps the list before to the list after;
    the clock readings and whether the file write succeeded come in as
    arguments, and the list after is what stays in memory either way. */
module Store {
  import opened Options
  import opened Seqs
  import opened Text
  import opened Tagging

  /** One stored note; the timestamps are ISO-8601 strings. */
  datatype Note = Note(id: int, content: string, tags: seq<string>, created: string, modified: string)

  /** How an operation ended; the program returns True exactly for `Ok`. */
  datatype Status = Ok | EmptyContent | NotFound | SaveFailed

  /** The notes held in memory after an operation, and how it ended. */
  datatype Step = Step(notes: seq<Note>, status: Status)

  /** The outcome of the final write of the whole list. */
  function SaveStatus(saved: bool): (s: Status)
    ensures s == Ok <==> saved
    ensures s == Ok || s == SaveFailed
  {
    if saved then Ok else SaveFailed
  }

  predicate HasId(notes: seq<Note>, id: int)
  {
    exists i :: 0 <= i < |notes| && notes[i].id == id
  }

  /** `i` is the position of the first note carrying `id`. */
  predicate IsFirstWithId(notes: seq<Note>, id: int, i: int)
  {
    0 <= i < |notes| && notes[i].id == id && forall j :: 0 <= j < i ==> notes[j].id != id
  }

  /** Position of the first note carrying `id`, scanning from the front. */
  function FindFirst(notes: seq<Note>, id: int): (r: Option<nat>)
    ensures r.None? <==> !HasId(notes, id)
    ensures r.Some? ==> IsFirstWithId(notes, id, r.value)
    decreases |notes|
  {
    if |notes| == 0 then None
    else if notes[0].id == id then Some(0)
    else
      match FindFirst(notes[1..], id)
      case None =>
        assert forall i :: 1 <= i < |notes| ==> notes[i] == notes[1..][i - 1];
        None
      case Some(k) =>
        assert notes[k + 1] == notes[1..][k];
        Some(k + 1)
  }

  /** `get_note_by_id`: the first note carrying `id`, if any. */
  function GetNoteById(notes: seq<Note>, id: int): (r: Option<Note>)
    ensures r.None? <==> !HasId(notes, id)
    ensures r.Some? ==> exists i :: IsFirstWithId(notes, id, i) && r.value == notes[i]
  {
    match FindFirst(notes, id)
    case None => None
    case Some(i) => Some(notes[i])
  }

  /** `list(set(a + b))`: every tag of either list, each once. */
  function TagUnion(a: seq<string>, b: seq<string>): (r: seq<string>)
    ensures NoDups(r)
    ensures forall t :: t in r <==> t in a || t in b
  {
    Dedup(a + b)
  }

  /** The tags a note gets from its own text: its hashtags, then its keywords. */
  function AutoTags(content: string, order: seq<string>): seq<string>
    requires IsSetOrder(order, KeywordCandidates(content))
  {
    ExtractTags(content) + ExtractKeywords(content, order)
  }

  /** `add_note`. `explicit` holds the tags given on the command line (empty
      when none), `order` the iteration order of the keyword set, `created`
      and `modified` the two clock readings, `saved` whether the file write
      succeeded. */
  function AddNote(notes: seq<Note>, content: string, explicit: seq<string>, order: seq<string>,
                   created: string, modified: string, saved: bool): (r: Step)
    requires IsSetOrder(order, KeywordCandidates(content))
    ensures IsBlank(content) ==> r == Step(notes, EmptyContent)
    ensures !IsBlank(content) ==>
              && |r.notes| == |notes| + 1
              && r.notes[..|notes|] == notes
              && r.status == SaveStatus(saved)
    ensures !IsBlank(content) ==>
              var n := r.notes[|notes|];
              && n.id == |notes| + 1
              && n.content == content
              && n.created == created
              && n.modified == modified
              && n.tags == TagUnion(ExtractTags(content) + ExtractKeywords(content, order), explicit)
  {
    if IsBlank(content) then Step(notes, EmptyContent)
    else
      var tags := TagUnion(AutoTags(content, order), explicit);
      var note := Note(|notes| + 1, content, tags, created, modified);
      assert (notes + [note])[..|notes|] == notes;
      Step(notes + [note], SaveStatus(saved))
  }

  /** `edit_note`: the first note carrying `id` gets the new content, the
      new modification time, and tags recomputed from the new content alone. */
  function EditNote(notes: seq<Note>, id: int, content: string, order: seq<string>,
                    modified: string, saved: bool): (r: Step)
    requires IsSetOrder(order, KeywordCandidates(content))
    ensures !HasId(notes, id) ==> r == Step(notes, NotFound)
    ensures HasId(notes, id) ==>
              var i := FindFirst(notes, id).value;
              && |r.notes| == |notes|
              && (forall j :: 0 <= j < |notes| && j != i ==> r.notes[j] == notes[j])
              && r.notes[i].id == id
              && r.notes[i].created == notes[i].created
              && r.notes[i].content == content
              && r.notes[i].modified == modified
              && r.notes[i].tags == TagUnion(ExtractTags(content), ExtractKeywords(content, order))
              && r.status == SaveStatus(saved)
  {
    match FindFirst(notes, id)
    case None => Step(notes, NotFound)
    case Some(i) =>
      var note := notes[i].(content := content, modified := modified,
                            tags := TagUnion(ExtractTags(content), ExtractKeywords(content, order)));
      Step(notes[i := note], SaveStatus(saved))
  }

  /** The notes that do not carry `id`, in their original order. */
  function WithoutId(notes: seq<Note>, id: int): (r: seq<Note>)
    ensures forall n :: n in r <==> n in notes && n.id != id
    ensures !HasId(r, id)
    ensures HasId(notes, id) ==> |r| < |notes|
    ensures !HasId(notes, id) ==> r == notes
  {
    var r := Filter(notes, (n: Note) => n.id != id);
    if HasId(notes, id) then
      var i :| 0 <= i < |notes| && notes[i].id == id;
      FilterDrops(notes, (n: Note) => n.id != id, i);
      r
    else
      FilterKeepsAll(notes, (n: Note) => n.id != id);
      r
  }

  /** Removing an id commutes with splitting the list, so the notes that
      stay keep their relative order. */
  lemma WithoutIdConcat(a: seq<Note>, b: seq<Note>, id: int)
    ensures WithoutId(a + b, id) == WithoutId(a, id) + WithoutId(b, id)
  {
    FilterConcat(a, b, (n: Note) => n.id != id);
  }

  /** `delete_note`: every note carrying `id` is removed. */
  function DeleteNote(notes: seq<Note>, id: int, saved: bool): (r: Step)
    ensures !HasId(notes, id) ==> r == Step(notes, NotFound)
    ensures HasId(notes, id) ==>
              && r.notes == WithoutId(notes, id)
              && |r.notes| < |notes|
              && r.status == SaveStatus(saved)
  {
    if !HasId(notes, id) then Step(notes, NotFound)
    else Step(WithoutId(notes, id), SaveStatus(saved))
  }

  /** One tag given to `tag_note`: lowercased, then stripped of `#` at both
      ends. Whitespace is kept. */
  function NormalizeTag(t: string): (r: string)
    ensures IsLowercase(r)
    ensures |r| > 0 ==> r[0] != '#' && r[|r| - 1] != '#'
    ensures exists k :: StrippedAt(Lower(t), {'#'}, k, r)
  {
    LowerIsLowercase(t);
    StripHashes(Lower(t))
  }

  /** `s.strip("#")` of an already lowercased tag. */
  function StripHashes(l: string): (r: string)
    requires IsLowercase(l)
    ensures IsLowercase(r)
    ensures |r| > 0 ==> r[0] != '#' && r[|r| - 1] != '#'
    ensures exists k :: StrippedAt(l, {'#'}, k, r)
  {
    var r := Strip(l, {'#'});
    StrippedLowercase(l, {'#'}, SkipLeading(l, {'#'}, 0), r);
    r
  }

  function NormalizeTags(tags: seq<string>): (r: seq<string>)
    ensures |r| == |tags|
    ensures forall k :: 0 <= k < |tags| ==> r[k] == NormalizeTag(tags[k])
  {
    seq(|tags|, k requires 0 <= k < |tags| => NormalizeTag(tags[k]))
  }

  /** `tag_note`: the first note carrying `id` gets the normalized tags
      added to the ones it has, and the new modification time. */
  function TagNote(notes: seq<Note>, id: int, tags: seq<string>, modified: string, saved: bool): (r: Step)
    ensures !HasId(notes, id) ==> r == Step(notes, NotFound)
    ensures HasId(notes, id) ==>
              var i := FindFirst(notes, id).value;
              && |r.notes| == |notes|
              && (forall j :: 0 <= j < |notes| && j != i ==> r.notes[j] == notes[j])
              && r.notes[i].id == id
              && r.notes[i].content == notes[i].content
              && r.notes[i].created == notes[i].created
              && r.notes[i].modified == modified
              && r.notes[i].tags == TagUnion(notes[i].tags, NormalizeTags(tags))
              && r.status == SaveStatus(saved)
  {
    match FindFirst(notes, id)
    case None => Step(notes, NotFound)
    case Some(i) =>
      var note := notes[i].(tags := TagUnion(notes[i].tags, NormalizeTags(tags)), modified := modified);
      Step(notes[i := note], SaveStatus(saved))
  }

  /** Every note carries a different id. */
  predicate UniqueIds(notes: seq<Note>)
  {
    forall i, j :: 0 <= i < j < |notes| ==> notes[i].id != notes[j].id
  }

  /** The ids are 1, 2, ..., in list order: what a store that has only ever
      been added to looks like. */
  predicate DenseIds(notes: seq<Note>)
  {
    forall i :: 0 <= i < |notes| ==> notes[i].id == i + 1
  }

  /** As long as notes are only added, ids stay 1..n, hence distinct, and a
      new note can be fetched back by the id it was given. */
  lemma AddKeepsDenseIds(notes: seq<Note>, content: string, explicit: seq<string>, order: seq<string>,
                         created: string, modified: string, saved: bool)
    requires IsSetOrder(order, KeywordCandidates(content))
    requires DenseIds(notes)
    ensures DenseIds(AddNote(notes, content, explicit, order, created, modified, saved).notes)
    ensures UniqueIds(AddNote(notes, content, explicit, order, created, modified, saved).notes)
    ensures !IsBlank(content) ==>
              var after := AddNote(notes, content, explicit, order, created, modified, saved).notes;
              GetNoteById(after, |notes| + 1) == Some(after[|notes|])
  {
    var after := AddNote(notes, content, explicit, order, created, modified, saved).notes;
    if !IsBlank(content) {
      AppendNextId(notes, after);
    }
  }

  /** Appending a note whose id is the next number keeps ids dense. */
  lemma AppendNextId(notes: seq<Note>, after: seq<Note>)
    requires DenseIds(notes)
    requires |after| == |notes| + 1 && after[..|notes|] == notes && after[|notes|].id == |notes| + 1
    ensures DenseIds(after) && UniqueIds(after)
    ensures GetNoteById(after, |notes| + 1) == Some(after[|notes|])
  {
    forall j | 0 <= j < |notes|
      ensures after[j].id == j + 1
    {
      assert after[j] == after[..|notes|][j];
    }
    assert IsFirstWithId(after, |notes| + 1, |notes|);
    LookupFirst(after, |notes| + 1, |notes|);
  }

  /** Because a new id is the count plus one, it can already be taken: then
      the store holds two notes with the same id. */
  lemma AddCanDuplicateId(notes: seq<Note>, content: string, explicit: seq<string>, order: seq<string>,
                          created: string, modified: string, saved: bool)
    requires IsSetOrder(order, KeywordCandidates(content))
    requires !IsBlank(content) && HasId(notes, |notes| + 1)
    ensures !UniqueIds(AddNote(notes, content, explicit, order, created, modified, saved).notes)
  {
    var after := AddNote(notes, content, explicit, order, created, modified, saved).notes;
    var i :| 0 <= i < |notes| && notes[i].id == |notes| + 1;
    assert after[i] == notes[i];
  }

  lemma DeleteMiddleOfThree(notes: seq<Note>, saved: bool)
    requires |notes| == 3 && DenseIds(notes)
    ensures DeleteNote(notes, 2, saved).notes == [notes[0], notes[2]]
  {
    assert notes[0].id == 1 && notes[1].id == 2 && notes[2].id == 3;
    WithoutMiddle(notes, 2);
  }

  /** Removing the id that only the middle one of three notes carries. */
  lemma WithoutMiddle(notes: seq<Note>, id: int)
    requires |notes| == 3 && notes[0].id != id && notes[1].id == id && notes[2].id != id
    ensures WithoutId(notes, id) == [notes[0], notes[2]]
  {
    var a, b, c := notes[0], notes[1], notes[2];
    ThreeParts(notes);
    WithoutIdConcat([a] + [b], [c], id);
    WithoutIdConcat([a], [b], id);
    WithoutIdSingle(a, id);
    WithoutIdSingle(b, id);
    WithoutIdSingle(c, id);
    assert ([a] + []) + [c] == [a, c];
  }

  lemma WithoutIdSingle(n: Note, id: int)
    ensures WithoutId([n], id) == if n.id != id then [n] else []
  {
    FilterCons(n, [], (m: Note) => m.id != id);
    assert [n] + [] == [n];
  }

  /** Three notes with ids 1, 2, 3; deleting note 2 and adding a note gives
      the new note id 3, which note 3 already has. Looking up id 3 then
      finds the old note, so the new one cannot be shown, edited, tagged or
      deleted on its own. */
  lemma DeleteThenAddReusesId(notes: seq<Note>, content: string, explicit: seq<string>, order: seq<string>,
                              created: string, modified: string, saved1: bool, saved2: bool)
    requires IsSetOrder(order, KeywordCandidates(content))
    requires |notes| == 3 && DenseIds(notes) && !IsBlank(content)
    ensures var after := AddNote(DeleteNote(notes, 2, saved1).notes, content, explicit, order,
                                 created, modified, saved2).notes;
            && |after| == 3
            && after[0] == notes[0] && after[1] == notes[2]
            && after[2].id == 3 && after[1].id == 3
            && !UniqueIds(after)
            && GetNoteById(after, 3) == Some(notes[2])
  {
    var kept := DeleteNote(notes, 2, saved1).notes;
    DeleteMiddleOfThree(notes, saved1);
    var after := AddNote(kept, content, explicit, order, created, modified, saved2).notes;
    AppendOntoTwo(notes, kept, after);
  }

  /** Appending a note with id 3 behind notes 1 and 3 of a dense store. */
  lemma AppendOntoTwo(notes: seq<Note>, kept: seq<Note>, after: seq<Note>)
    requires |notes| == 3 && DenseIds(notes) && kept == [notes[0], notes[2]]
    requires |after| == 3 && after[..2] == kept && after[2].id == 3
    ensures after[0] == notes[0] && after[1] == notes[2] && after[1].id == 3
    ensures !UniqueIds(after)
    ensures GetNoteById(after, 3) == Some(notes[2])
  {
    assert after[0] == after[..2][0] && after[1] == after[..2][1];
    assert IsFirstWithId(after, 3, 1);
    LookupFirst(after, 3, 1);
  }

  lemma LookupFirst(notes: seq<Note>, id: int, i: int)
    requires IsFirstWithId(notes, id, i)
    ensures GetNoteById(notes, id) == Some(notes[i])
  {
  }

  lemma {:induction false} WithoutIdKeepsUnique(notes: seq<Note>, id: int)
    requires UniqueIds(notes)
    ensures UniqueIds(WithoutId(notes, id))
    decreases |notes|
  {
    if |notes| > 0 {
      var h, t := notes[0], notes[1..];
      TailUnique(notes);
      WithoutIdKeepsUnique(t, id);
      assert notes == [h] + t;
      WithoutIdConcat([h], t, id);
      ConsUnique(h, WithoutId(t, id));
      assert WithoutId([h], id) == [h] || WithoutId([h], id) == [];
    }
  }

  /** The notes after the first have distinct ids, none of them the first's. */
  lemma TailUnique(notes: seq<Note>)
    requires UniqueIds(notes) && |notes| > 0
    ensures UniqueIds(notes[1..])
    ensures forall n | n in notes[1..] :: n.id != notes[0].id
  {
    var t := notes[1..];
    forall i, j | 0 <= i < j < |t|
      ensures t[i].id != t[j].id
    {
      assert t[i] == notes[i + 1] && t[j] == notes[j + 1];
    }
    forall n | n in t
      ensures n.id != notes[0].id
    {
      var k :| 0 <= k < |t| && t[k] == n;
      assert notes[k + 1] == n;
    }
  }

  /** Putting a note in front of notes with other ids keeps ids distinct. */
  lemma ConsUnique(h: Note, rest: seq<Note>)
    requires UniqueIds(rest) && forall n | n in rest :: n.id != h.id
    ensures UniqueIds([h] + rest)
  {
    var s := [h] + rest;
    forall i, j | 0 <= i < j < |s|
      ensures s[i].id != s[j].id
    {
      assert s[j] == rest[j - 1];
      if i > 0 {
        assert s[i] == rest[i - 1];
      } else {
        assert rest[j - 1] in rest;
      }
    }
  }

  /** Deleting never creates a duplicate id, and afterwards the id is gone. */
  lemma DeleteKeepsUniqueIds(notes: seq<Note>, id: int, saved: bool)
    requires UniqueIds(notes)
    ensures UniqueIds(DeleteNote(notes, id, saved).notes)
    ensures GetNoteById(DeleteNote(notes, id, saved).notes, id) == None
  {
    WithoutIdKeepsUnique(notes, id);
  }

  /** Editing and tagging leave every id where it was. */
  lemma EditAndTagKeepIds(notes: seq<Note>, id: int, content: string, order: seq<string>,
                          tags: seq<string>, modified: string, saved: bool)
    requires IsSetOrder(order, KeywordCandidates(content))
    ensures var after := EditNote(notes, id, content, order, modified, saved).notes;
            |after| == |notes| && forall j :: 0 <= j < |notes| ==> after[j].id == notes[j].id
    ensures var after := TagNote(notes, id, tags, modified, saved).notes;
            |after| == |notes| && forall j :: 0 <= j < |notes| ==> after[j].id == notes[j].id
  {
  }

  /** `tag_note` strips only `#`: padding spaces survive normalization, so
      `"  URGENT  "` becomes `"  urgent  "`, not `"urgent"`. */
  lemma NormalizeKeepsPadding(w: string)
    requires |w| > 0 && w[0] != '#' && w[|w| - 1] != '#'
    ensures NormalizeTag("  " + w + "  ") == "  " + Lower(w) + "  "
    ensures NormalizeTag("  " + w + "  ") != Lower(w)
  {
    var pad := "  ";
    var u := pad + Lower(w) + pad;
    assert Lower(pad + w + pad) == u by {
      LowerConcat(pad + w, pad);
      LowerConcat(pad, w);
      LowerIsLowercase(pad);
    }
    assert u[0] == ' ' && u[|u| - 1] == ' ';
    StripEmptyIff(u, {'#'});
    assert |u| != |Lower(w)|;
  }

  /** A leading `#` is dropped and the rest lowercased: `"#Important"`
      becomes `"important"`. */
  lemma NormalizeDropsHash(w: string)
    requires |w| > 0 && w[0] != '#' && w[|w| - 1] != '#'
    ensures NormalizeTag("#" + w) == Lower(w)
  {
    LowerConcat("#", w);
    assert Lower("#") == "#";
    StripOneLeading('#', Lower(w), {'#'});
  }
}

=== FILE: tagging.dfy ===
/** The two heuristics that tag a note from its text: hashtags (`#word`)
    and up to three keywords (long alphabetic words that are not stop words). */
module Tagging {
  import opened Text
  import opened Seqs

  /** What `re.findall(r'#(\w+)', s)` returns: for every `#` directly
      followed by word characters, the whole run of them, scanning on after
      the run; case is kept. */
  function Hashtags(s: string): (r: seq<string>)
    ensures forall t :: t in r ==> IsWord(t)
    ensures '#' !in s ==> r == []
    decreases |s|
  {
    if |s| == 0 then []
    else if s[0] == '#' && WordRun(s[1..]) > 0 then
      var n := WordRun(s[1..]);
      [s[1..1 + n]] + Hashtags(s[1 + n..])
    else
      assert '#' !in s ==> '#' !in s[1..];
      Hashtags(s[1..])
  }

  /** The hashtags of `text`, lowercased, one entry per occurrence, in order. */
  function ExtractTags(text: string): (r: seq<string>)
    ensures |r| == |Hashtags(text)|
    ensures forall i :: 0 <= i < |r| ==> r[i] == Lower(Hashtags(text)[i])
    ensures forall t :: t in r ==> IsWord(t) && IsLowercase(t) && '#' !in t
    ensures '#' !in text ==> r == []
  {
    var h := Hashtags(text);
    var r := seq(|h|, i requires 0 <= i < |h| => Lower(h[i]));
    forall t | t in r
      ensures IsWord(t) && IsLowercase(t) && '#' !in t
    {
      var i :| 0 <= i < |r| && r[i] == t;
      assert h[i] in h;
      LowerIsLowercase(h[i]);
      assert IsWord(h[i]);
    }
    r
  }

  lemma HashtagsMatchStep(s: string, n: nat)
    requires |s| > 0 && s[0] == '#' && n == WordRun(s[1..]) && n > 0
    ensures Hashtags(s) == [s[1..1 + n]] + Hashtags(s[1 + n..])
  {
  }

  lemma HashtagsSkipStep(s: string)
    requires |s| > 0 && !(s[0] == '#' && WordRun(s[1..]) > 0)
    ensures Hashtags(s) == Hashtags(s[1..])
  {
  }

  /** A character that is neither a word character nor `#` separates
      hashtags: the text on each side is scanned on its own. */
  lemma {:induction false} HashtagsConcat(a: string, c: char, b: string)
    requires !IsWordChar(c) && c != '#'
    ensures Hashtags(a + [c] + b) == Hashtags(a) + Hashtags(b)
    decreases |a|
  {
    if |a| == 0 {
      HashtagsSeparator(c, b);
      assert a + [c] + b == [c] + b;
    } else if a[0] == '#' && WordRun(a[1..]) > 0 {
      var n := WordRun(a[1..]);
      HashtagsConcat(a[1 + n..], c, b);
      HashtagsConcatMatch(a, c, b);
    } else {
      HashtagsConcat(a[1..], c, b);
      HashtagsConcatSkip(a, c, b);
    }
  }

  lemma HashtagsSeparator(c: char, b: string)
    requires !IsWordChar(c) && c != '#'
    ensures Hashtags([c] + b) == Hashtags(b)
  {
    HashtagsSkipStep([c] + b);
    assert ([c] + b)[1..] == b;
  }

  /** How `a + [c] + b` looks just after a hashtag at the start of `a`. */
  lemma ConcatAfterHashtag(a: string, c: char, b: string, n: nat)
    requires !IsWordChar(c)
    requires |a| > 0 && n == WordRun(a[1..])
    ensures WordRun((a + [c] + b)[1..]) == n
    ensures (a + [c] + b)[1..1 + n] == a[1..1 + n]
    ensures (a + [c] + b)[1 + n..] == a[1 + n..] + [c] + b
  {
    TailOfJoin(a, c, b);
    WordRunConcat(a[1..], c, b);
  }

  lemma HashtagsConcatMatch(a: string, c: char, b: string)
    requires !IsWordChar(c) && c != '#'
    requires |a| > 0 && a[0] == '#' && WordRun(a[1..]) > 0
    requires Hashtags(a[1 + WordRun(a[1..])..] + [c] + b)
          == Hashtags(a[1 + WordRun(a[1..])..]) + Hashtags(b)
    ensures Hashtags(a + [c] + b) == Hashtags(a) + Hashtags(b)
  {
    var n := WordRun(a[1..]);
    var s := a + [c] + b;
    ConcatAfterHashtag(a, c, b, n);
    HashtagsMatchStep(s, n);
    HashtagsMatchStep(a, n);
    Regroup(Hashtags(s), [a[1..1 + n]], Hashtags(a[1 + n..] + [c] + b),
            Hashtags(a[1 + n..]), Hashtags(b), Hashtags(a));
  }

  lemma HashtagsConcatSkip(a: string, c: char, b: string)
    requires !IsWordChar(c) && c != '#'
    requires |a| > 0 && !(a[0] == '#' && WordRun(a[1..]) > 0)
    requires Hashtags(a[1..] + [c] + b) == Hashtags(a[1..]) + Hashtags(b)
    ensures Hashtags(a + [c] + b) == Hashtags(a) + Hashtags(b)
  {
    var s := a + [c] + b;
    TailOfJoin(a, c, b);
    WordRunConcat(a[1..], c, b);
    HashtagsSkipStep(s);
    HashtagsSkipStep(a);
  }

  lemma ExtractTagsConcat(a: string, c: char, b: string)
    requires !IsWordChar(c) && c != '#'
    ensures ExtractTags(a + [c] + b) == ExtractTags(a) + ExtractTags(b)
  {
    HashtagsConcat(a, c, b);
  }

  /** `#` followed by a word yields that word, lowercased. */
  lemma ExtractTagsOfHashtag(w: string)
    requires IsWord(w)
    ensures ExtractTags("#" + w) == [Lower(w)]
  {
    var s := "#" + w;
    assert s[1..] == w;
    WordRunAll(w);
    assert s[1..1 + |w|] == w;
    assert s[1 + |w|..] == [];
  }

  /** Space-separated hashtags come out one per occurrence and in order,
      as in `#python #coding #tips`. */
  lemma ExtractTagsSpaced(x: string, y: string, z: string)
    requires IsWord(x) && IsWord(y) && IsWord(z)
    ensures ExtractTags("#" + x + " #" + y + " #" + z) == [Lower(x), Lower(y), Lower(z)]
  {
    ExtractTagsOfHashtag(x);
    ExtractTagsOfHashtag(y);
    ExtractTagsOfHashtag(z);
    var hy, hz := "#" + y, "#" + z;
    assert "#" + x + " #" + y + " #" + z == ("#" + x) + [' '] + (hy + [' '] + hz);
    ExtractTagsConcat(hy, ' ', hz);
    ExtractTagsConcat("#" + x, ' ', hy + [' '] + hz);
  }

  /** A hashtag after text without `#` is the only tag, lowercased, as in
      `This is a #Test`. */
  lemma ExtractTagsAfterPlainText(p: string, w: string)
    requires '#' !in p && IsWord(w)
    ensures ExtractTags(p + " #" + w) == [Lower(w)]
  {
    ExtractTagsOfHashtag(w);
    assert p + " #" + w == p + [' '] + ("#" + w);
    ExtractTagsConcat(p, ' ', "#" + w);
  }

  /** The fixed stop-word list of the keyword heuristic. */
  const StopWords: set<string> := {
    "that", "this", "with", "have", "from", "they", "been",
    "were", "said", "each", "which", "their", "there", "would",
    "make", "like", "into", "time", "than", "them", "some"
  }

  /** A word the pattern `\b[a-zA-Z]{4,}\b` matches as a whole. */
  predicate IsLongAlpha(w: string)
  {
    |w| >= 4 && forall i :: 0 <= i < |w| ==> IsAsciiLetter(w[i])
  }

  predicate IsNotStopWord(w: string)
  {
    w !in StopWords
  }

  /** What an extracted keyword always is. */
  predicate IsKeyword(w: string)
  {
    IsLongAlpha(w) && IsLowercase(w) && w !in StopWords
  }

  /** The list `keywords` before it is turned into a set: every word of the
      lowercased text matched by the pattern, minus the stop words, in order
      and with repetitions. */
  function KeywordCandidates(text: string): (r: seq<string>)
    ensures forall w :: w in r ==> IsKeyword(w)
  {
    var words := Words(Lower(text));
    var matches := Filter(words, IsLongAlpha);
    var r := Filter(matches, IsNotStopWord);
    forall w | w in r
      ensures IsLowercase(w)
    {
      LowerWordsLowercase(Lower(text), w);
    }
    r
  }

  /** The candidates are exactly the words of the lowered text that are
      at least four ASCII letters long and not stop words. */
  lemma KeywordCandidatesExact(text: string, w: string)
    ensures w in KeywordCandidates(text) <==>
              w in Words(Lower(text)) && IsLongAlpha(w) && w !in StopWords
  {
  }

  lemma {:induction false} LowerWordsLowercase(s: string, w: string)
    requires IsLowercase(s) && w in Words(s)
    ensures IsLowercase(w)
    decreases |s|
  {
    if |s| > 0 {
      if !IsWordChar(s[0]) {
        LowerWordsLowercase(s[1..], w);
      } else {
        var n := WordRun(s);
        if w != s[..n] {
          LowerWordsLowercase(s[n..], w);
        }
      }
    }
  }

  /** `list(set(keywords))[:3]`, where `order` is the order in which the
      set happened to be iterated: at most three distinct keywords of the
      text, and all of them when there are no more than three. */
  function ExtractKeywords(text: string, order: seq<string>): (r: seq<string>)
    requires IsSetOrder(order, KeywordCandidates(text))
    ensures |r| <= 3
    ensures NoDups(r)
    ensures forall w :: w in r ==> w in KeywordCandidates(text) && IsKeyword(w)
    ensures |r| == Min(3, |Elems(KeywordCandidates(text))|)
  {
    NoDupsCardinality(order);
    assert Elems(order) == Elems(KeywordCandidates(text));
    order[..Min(3, |order|)]
  }

  /** The keywords in order of first occurrence: one iteration order the
      set may take, so `ExtractKeywords` can always be evaluated. */
  function FirstOccurrenceOrder(text: string): (order: seq<string>)
    ensures IsSetOrder(order, KeywordCandidates(text))
  {
    Dedup(KeywordCandidates(text))
  }

  /** With at most three distinct keywords, every one of them is extracted,
      whatever the iteration order. */
  lemma KeywordsAllWhenFew(text: string, order: seq<string>)
    requires IsSetOrder(order, KeywordCandidates(text))
    requires |Elems(KeywordCandidates(text))| <= 3
    ensures forall w :: w in KeywordCandidates(text) ==> w in ExtractKeywords(text, order)
  {
    NoDupsCardinality(order);
    assert Elems(order) == Elems(KeywordCandidates(text));
    assert ExtractKeywords(text, order) == order;
  }

  lemma LowercaseJoin(x: string, y: string)
    requires IsLowercase(x) && IsLowercase(y)
    ensures IsLowercase(x + " " + y)
  {
    var t := x + " " + y;
    forall i | 0 <= i < |t|
      ensures !IsUpper(t[i])
    {
      if i < |x| { assert t[i] == x[i]; }
      else if i == |x| { assert t[i] == ' '; }
      else { assert t[i] == y[i - |x| - 1]; }
    }
  }

  lemma WordsOfThree(x: string, y: string, z: string)
    requires IsWord(x) && IsWord(y) && IsWord(z)
    ensures Words(x + " " + y + " " + z) == [x, y, z]
  {
    var yz := y + [' '] + z;
    assert x + " " + y + " " + z == x + [' '] + yz;
    WordsOfWord(x);
    WordsOfWord(y);
    WordsOfWord(z);
    WordsConcat(y, ' ', z);
    WordsConcat(x, ' ', yz);
  }

  lemma CandidatesOfThree(x: string, y: string, z: string)
    requires IsKeyword(x) && IsKeyword(y) && IsKeyword(z)
    ensures KeywordCandidates(x + " " + y + " " + z) == [x, y, z]
  {
    var text := x + " " + y + " " + z;
    LowercaseJoin(x, y);
    LowercaseJoin(x + " " + y, z);
    LowerIsLowercase(text);
    WordsOfThree(x, y, z);
    var words := [x, y, z];
    FilterKeepsAll(words, IsLongAlpha);
    FilterKeepsAll(words, IsNotStopWord);
  }

  /** Keyword extraction lowers the text first, so lowering it beforehand
      changes nothing. */
  lemma CandidatesIgnoreCase(text: string)
    ensures KeywordCandidates(Lower(text)) == KeywordCandidates(text)
  {
    LowerIsLowercase(text);
  }

  lemma LowerOfThree(x: string, y: string, z: string)
    ensures Lower(x + " " + y + " " + z) == Lower(x) + " " + Lower(y) + " " + Lower(z)
  {
    assert Lower(" ") == " ";
    LowerConcat(x, " ");
    LowerConcat(x + " ", y);
    LowerConcat(x + " " + y, " ");
    LowerConcat(x + " " + y + " ", z);
  }

  /** Three words separated by spaces that are keywords once lowered, as in
      `Python programming tutorial`, all come out lowered, whatever the
      iteration order. */
  lemma KeywordsOfThreeWords(x: string, y: string, z: string, order: seq<string>)
    requires IsKeyword(Lower(x)) && IsKeyword(Lower(y)) && IsKeyword(Lower(z))
    requires IsSetOrder(order, KeywordCandidates(x + " " + y + " " + z))
    ensures Lower(x) in ExtractKeywords(x + " " + y + " " + z, order)
    ensures Lower(y) in ExtractKeywords(x + " " + y + " " + z, order)
    ensures Lower(z) in ExtractKeywords(x + " " + y + " " + z, order)
  {
    MixedCandidatesOfThree(x, y, z);
    ThreeCandidatesExtracted(x + " " + y + " " + z, order, Lower(x), Lower(y), Lower(z));
  }

  lemma ThreeCandidatesExtracted(text: string, order: seq<string>, a: string, b: string, c: string)
    requires IsSetOrder(order, KeywordCandidates(text))
    requires KeywordCandidates(text) == [a, b, c]
    ensures a in ExtractKeywords(text, order)
    ensures b in ExtractKeywords(text, order)
    ensures c in ExtractKeywords(text, order)
  {
    DedupIsSetOrder([a, b, c]);
    KeywordsAllWhenFew(text, order);
  }

  lemma MixedCandidatesOfThree(x: string, y: string, z: string)
    requires IsKeyword(Lower(x)) && IsKeyword(Lower(y)) && IsKeyword(Lower(z))
    ensures KeywordCandidates(x + " " + y + " " + z) == [Lower(x), Lower(y), Lower(z)]
  {
    var text := x + " " + y + " " + z;
    LowerOfThree(x, y, z);
    CandidatesIgnoreCase(text);
    CandidatesOfThree(Lower(x), Lower(y), Lower(z));
  }
}

=== FILE: text.dfy ===
/** The string operations the note store relies on, written out for
    `seq<char>`: `str.lower()`, `str.strip()`, the `in` substring test, the
    `\w` character class, and Python's ordering of strings. */
module Text {
  import opened Seqs

  /** The characters Python's `str.isspace()` accepts, which `str.strip()`
      with no argument removes from both ends. */
  const Whitespace: set<char> := {
    ' ', '\t', '\n', '\r', '\U{B}', '\U{C}', '\U{1C}', '\U{1D}', '\U{1E}', '\U{1F}',
    '\U{85}', '\U{A0}', '\U{1680}',
    '\U{2000}', '\U{2001}', '\U{2002}', '\U{2003}', '\U{2004}', '\U{2005}',
    '\U{2006}', '\U{2007}', '\U{2008}', '\U{2009}', '\U{200A}',
    '\U{2028}', '\U{2029}', '\U{202F}', '\U{205F}', '\U{3000}'
  }

  predicate IsUpper(c: char) { 'A' <= c <= 'Z' }

  predicate IsAsciiLetter(c: char) { 'a' <= c <= 'z' || 'A' <= c <= 'Z' }

  /** The regular-expression class `\w`, restricted to ASCII. */
  predicate IsWordChar(c: char)
  {
    IsAsciiLetter(c) || '0' <= c <= '9' || c == '_'
  }

  /** A non-empty run of word characters. */
  predicate IsWord(w: string)
  {
    |w| > 0 && forall i :: 0 <= i < |w| ==> IsWordChar(w[i])
  }

  function LowerChar(c: char): (r: char)
    ensures !IsUpper(r)
    ensures IsWordChar(r) <==> IsWordChar(c)
    ensures IsAsciiLetter(r) <==> IsAsciiLetter(c)
    ensures r == c <==> !IsUpper(c)
    ensures IsUpper(c) ==> r as int == c as int + 32
  {
    if IsUpper(c) then (c as int + 32) as char else c
  }

  /** `s.lower()` for ASCII letters; every other character is kept. */
  function Lower(s: string): (r: string)
    ensures |r| == |s|
    ensures forall i :: 0 <= i < |s| ==> r[i] == LowerChar(s[i])
  {
    seq(|s|, i requires 0 <= i < |s| => LowerChar(s[i]))
  }

  /** No ASCII capital letter occurs in `s`. */
  predicate IsLowercase(s: string)
  {
    forall i :: 0 <= i < |s| ==> !IsUpper(s[i])
  }

  lemma LowerIsLowercase(s: string)
    ensures IsLowercase(Lower(s))
    ensures Lower(Lower(s)) == Lower(s)
    ensures IsLowercase(s) ==> Lower(s) == s
  {
  }

  lemma LowerConcat(a: string, b: string)
    ensures Lower(a + b) == Lower(a) + Lower(b)
    ensures |a| > 0 && !IsUpper(a[0]) ==> Lower(a + b)[0] == a[0]
  {
  }

  /** The index of the first character at or after `i` that is not in `cs`,
      or `|s|` when there is none. */
  function SkipLeading(s: string, cs: set<char>, i: nat): (k: nat)
    requires i <= |s|
    ensures i <= k <= |s|
    ensures forall j :: i <= j < k ==> s[j] in cs
    ensures k < |s| ==> s[k] !in cs
    decreases |s| - i
  {
    if i < |s| && s[i] in cs then SkipLeading(s, cs, i + 1) else i
  }

  /** The end of `s[lo..e]` once its trailing characters in `cs` are dropped. */
  function SkipTrailing(s: string, cs: set<char>, lo: nat, e: nat): (r: nat)
    requires lo <= e <= |s|
    ensures lo <= r <= e
    ensures forall j :: r <= j < e ==> s[j] in cs
    ensures r > lo ==> s[r - 1] !in cs
    decreases e
  {
    if e > lo && s[e - 1] in cs then SkipTrailing(s, cs, lo, e - 1) else e
  }

  /** `r` is `s` with `k` characters of `cs` cut from the front and the
      rest of what follows `r` also made of characters of `cs`. */
  predicate StrippedAt(s: string, cs: set<char>, k: int, r: string)
  {
    && 0 <= k <= |s| - |r|
    && r == s[k..k + |r|]
    && (forall i :: 0 <= i < k ==> s[i] in cs)
    && (forall i :: k + |r| <= i < |s| ==> s[i] in cs)
  }

  /** `s.strip(cs)`: the longest middle part of `s` that neither starts nor
      ends with a character of `cs`. */
  function Strip(s: string, cs: set<char>): (r: string)
    ensures |r| > 0 ==> r[0] !in cs && r[|r| - 1] !in cs
    ensures StrippedAt(s, cs, SkipLeading(s, cs, 0), r)
  {
    var k := SkipLeading(s, cs, 0);
    s[k..SkipTrailing(s, cs, k, |s|)]
  }

  lemma StrippedLowercase(s: string, cs: set<char>, k: int, r: string)
    requires StrippedAt(s, cs, k, r) && IsLowercase(s)
    ensures IsLowercase(r)
  {
    forall i | 0 <= i < |r|
      ensures !IsUpper(r[i])
    {
      assert r[i] == s[k + i];
    }
  }

  /** Stripping yields nothing exactly when every character is stripped, and
      leaves alone a string that neither starts nor ends with one. */
  lemma StripEmptyIff(s: string, cs: set<char>)
    ensures Strip(s, cs) == [] <==> forall i :: 0 <= i < |s| ==> s[i] in cs
    ensures (|s| > 0 && s[0] !in cs && s[|s| - 1] !in cs) ==> Strip(s, cs) == s
  {
    var k := SkipLeading(s, cs, 0);
    var e := SkipTrailing(s, cs, k, |s|);
    if |s| > 0 && s[0] !in cs && s[|s| - 1] !in cs {
      assert k == 0 && e == |s|;
    }
  }

  /** One stripped character in front of an unstrippable string goes. */
  lemma StripOneLeading(c: char, x: string, cs: set<char>)
    requires c in cs && |x| > 0 && x[0] !in cs && x[|x| - 1] !in cs
    ensures Strip([c] + x, cs) == x
  {
    var s := [c] + x;
    assert s[0] == c && s[1] == x[0] && s[|s| - 1] == x[|x| - 1];
    assert SkipLeading(s, cs, 0) == 1;
    assert SkipTrailing(s, cs, 1, |s|) == |s|;
    assert s[1..] == x;
  }

  /** Python's `not s.strip()`: `s` holds nothing but whitespace. */
  predicate IsBlank(s: string)
  {
    Strip(s, Whitespace) == []
  }

  lemma BlankIffAllWhitespace(s: string)
    ensures IsBlank(s) <==> forall i :: 0 <= i < |s| ==> s[i] in Whitespace
  {
    StripEmptyIff(s, Whitespace);
  }

  /** `a` occurs in `b` starting at index `i`. */
  predicate OccursAt(a: string, b: string, i: int)
  {
    0 <= i <= |b| - |a| && b[i..i + |a|] == a
  }

  /** Python's `a in b` on strings: `a` occurs as a contiguous part of `b`. */
  function IsInfix(a: string, b: string): (r: bool)
    ensures r <==> exists i :: OccursAt(a, b, i)
    decreases |b|
  {
    if |a| > |b| then false
    else if b[..|a|] == a then assert OccursAt(a, b, 0); true
    else
      var rest := IsInfix(a, b[1..]);
      assert forall i :: OccursAt(a, b[1..], i) <==> OccursAt(a, b, i + 1) by {
        forall i ensures OccursAt(a, b[1..], i) <==> OccursAt(a, b, i + 1) {
          if 0 <= i <= |b| - 1 - |a| {
            assert b[1..][i..i + |a|] == b[i + 1..i + 1 + |a|];
          }
        }
      }
      assert !OccursAt(a, b, 0);
      assert (exists i :: OccursAt(a, b, i)) ==> exists i :: OccursAt(a, b[1..], i) by {
        if exists i :: OccursAt(a, b, i) {
          var i :| OccursAt(a, b, i);
          assert i > 0;
          assert OccursAt(a, b[1..], i - 1);
        }
      }
      rest
  }

  /** An occurrence survives lowering both strings, so a case-insensitive
      search finds every exact occurrence. */
  lemma LowerInfix(a: string, b: string)
    requires IsInfix(a, b)
    ensures IsInfix(Lower(a), Lower(b))
  {
    var i :| OccursAt(a, b, i);
    assert Lower(b)[i..i + |a|] == Lower(a) by {
      forall j | 0 <= j < |a|
        ensures Lower(b)[i..i + |a|][j] == Lower(a)[j]
      {
        assert b[i..i + |a|][j] == a[j];
      }
    }
    assert OccursAt(Lower(a), Lower(b), i);
  }

  /** Python's `<` on strings: code point by code point, a proper prefix
      being the smaller. */
  function LexLess(a: string, b: string): bool
    decreases |a|
  {
    if |a| == 0 then |b| > 0
    else if |b| == 0 then false
    else if a[0] != b[0] then a[0] < b[0]
    else LexLess(a[1..], b[1..])
  }

  /** Python's `<=` on strings. */
  predicate LexLe(a: string, b: string)
  {
    !LexLess(b, a)
  }

  lemma {:induction false} LexLessIrreflexive(a: string)
    ensures !LexLess(a, a)
    decreases |a|
  {
    if |a| > 0 {
      LexLessIrreflexive(a[1..]);
    }
  }

  lemma {:induction false} LexLessAsymmetric(a: string, b: string)
    ensures LexLess(a, b) ==> !LexLess(b, a)
    decreases |a|
  {
    if |a| > 0 && |b| > 0 && a[0] == b[0] {
      LexLessAsymmetric(a[1..], b[1..]);
    }
  }

  lemma {:induction false} LexLessTransitive(a: string, b: string, c: string)
    requires LexLess(a, b) && LexLess(b, c)
    ensures LexLess(a, c)
    decreases |a|
  {
    if |a| > 0 && |b| > 0 && |c| > 0 && a[0] == b[0] && b[0] == c[0] {
      LexLessTransitive(a[1..], b[1..], c[1..]);
    }
  }

  /** Distinct strings are always ordered one way or the other. */
  lemma {:induction false} LexLessTotal(a: string, b: string)
    ensures a == b || LexLess(a, b) || LexLess(b, a)
    decreases |a|
  {
    if |a| > 0 && |b| > 0 && a[0] == b[0] {
      LexLessTotal(a[1..], b[1..]);
      if a[1..] == b[1..] {
        assert a == [a[0]] + a[1..] && b == [b[0]] + b[1..];
      }
    }
  }

  /** The length of the longest common prefix of `a` and `b`: the first
      position where they differ, or where the shorter one ends. */
  function FirstDiff(a: string, b: string): (k: nat)
    ensures k <= |a| && k <= |b|
    ensures forall j :: 0 <= j < k ==> a[j] == b[j]
    ensures k < |a| && k < |b| ==> a[k] != b[k]
    decreases |a|
  {
    if |a| == 0 || |b| == 0 || a[0] != b[0] then 0
    else 1 + FirstDiff(a[1..], b[1..])
  }

  /** String order as Python defines it: decided by the first differing
      code point, and a proper prefix is the smaller string. */
  lemma {:induction false} LexLessFirstDiff(a: string, b: string)
    ensures LexLess(a, b) <==>
              var k := FirstDiff(a, b); k < |b| && (k == |a| || a[k] < b[k])
    decreases |a|
  {
    if |a| > 0 && |b| > 0 && a[0] == b[0] {
      LexLessFirstDiff(a[1..], b[1..]);
    }
  }

  /** Length of the longest prefix of `s` made of word characters. */
  function WordRun(s: string): (n: nat)
    ensures n <= |s|
    ensures forall i :: 0 <= i < n ==> IsWordChar(s[i])
    ensures n < |s| ==> !IsWordChar(s[n])
    decreases |s|
  {
    if |s| > 0 && IsWordChar(s[0]) then 1 + WordRun(s[1..]) else 0
  }

  lemma {:induction false} WordRunConcat(a: string, c: char, b: string)
    requires !IsWordChar(c)
    ensures WordRun(a + [c] + b) == WordRun(a)
    decreases |a|
  {
    if |a| > 0 && IsWordChar(a[0]) {
      TailOfJoin(a, c, b);
      WordRunConcat(a[1..], c, b);
    }
  }

  /** The maximal runs of word characters in `s`, left to right: the units
      the regular-expression anchor `\b` delimits. */
  function Words(s: string): (r: seq<string>)
    ensures forall w :: w in r ==> IsWord(w)
    decreases |s|
  {
    if |s| == 0 then []
    else if !IsWordChar(s[0]) then Words(s[1..])
    else
      var n := WordRun(s);
      [s[..n]] + Words(s[n..])
  }

  /** Splitting on a non-word character splits the words. */
  lemma {:induction false} WordsConcat(a: string, c: char, b: string)
    requires !IsWordChar(c)
    ensures Words(a + [c] + b) == Words(a) + Words(b)
    decreases |a|
  {
    var s := a + [c] + b;
    if |a| == 0 {
      assert s == [c] + b;
      assert s[1..] == b;
    } else if !IsWordChar(a[0]) {
      TailOfJoin(a, c, b);
      WordsConcat(a[1..], c, b);
    } else {
      var n := WordRun(s);
      WordRunConcat(a, c, b);
      assert s[..n] == a[..n];
      assert s[n..] == a[n..] + [c] + b;
      WordsConcat(a[n..], c, b);
    }
  }

  /** A string made only of word characters is one word. */
  lemma WordsOfWord(w: string)
    requires |w| > 0 && forall i :: 0 <= i < |w| ==> IsWordChar(w[i])
    ensures Words(w) == [w]
  {
    WordRunAll(w);
    assert w[..|w|] == w;
    assert w[|w|..] == [];
    assert Words(w[|w|..]) == [];
  }

  lemma {:induction false} WordRunAll(w: string)
    requires forall i :: 0 <= i < |w| ==> IsWordChar(w[i])
    ensures WordRun(w) == |w|
    decreases |w|
  {
    if |w| > 0 {
      WordRunAll(w[1..]);
    }
  }
}
